=== FILE: README.md ===
# digital-voting, modelled in Dafny

This project models the `institution` application of *digital-voting*, a Django
site where election-commission (EC) officers set up elections and students vote
in them. An officer creates an election for a faculty, adds positions to it, and
gives each position between two and ten candidates. A student belongs to one or
more faculties. They see the elections of those faculties that still have
positions for them. They vote one position at a time, taking the positions in
text order, with a progress bar. When the last position is voted, a completion
record is written, and the election is closed to that student from then on.

The database is a value of type `Models.Db`. Each table is a map from primary
key to row, and one `nextId` counter supplies fresh keys. Each view is a pure
function from a database and a request to a new database and an outcome.
`Outcomes.Result` carries the three ways a view can refuse:

- `NotFound` is a 404.
- `Invalid` is a form re-rendered with errors.
- `ServerError` is an exception that escapes the view and rolls back its atomic block.

Files:

- `outcomes.dfy` holds `Option`, `Error` and `Result`.
- `ordering.dfy` holds the order used for `order_by` on a text column, which compares texts by character code, and a sort of a finite set by key. Ties are broken by primary key.
- `models.dfy` holds the tables, referential integrity (`WellFormed`), `get_unvoted_positions`, the two writes of the vote view, and the delete cascades.
- `forms.dfy` holds the forms: `VoteForm`, the candidate inline formset with its `clean` hook, `StudentSignUpForm` and `StudentFacultyForm`.
- `student_views.dfy` holds the student views: the election list, the list of completed elections, the faculty form, the progress formula and the `vote` view.
- `ec_views.dfy` holds the officer views. Every lookup in them is scoped to the caller's own elections.
- `scenarios.dfy` walks a two-position election through to completion.

Two views are modelled with their bugs fixed, and the rest of the model builds
on the fixed versions. These are the ballot write of `vote` and the candidate
formset of `position_change`. The code as written is modelled beside each fix,
and the difference is proved (see "## Findings").

## Model

| member | source | states |
|---|---|---|
| `Ordering.SortByKey` | institution/models.py:62 | The sorted list holds every element of the set exactly once and nothing else, in non-decreasing key order. |
| `Ordering.SortedByText` | institution/models.py:62 | In the sorted list, the text part of the keys never decreases, which is the order `order_by` on a text column gives under character-code collation. |
| `Ordering.LeastExists` | institution/views/students.py:90 | Every non-empty set has an element whose key is at most every other element's key, so `first()` of an ordered query is defined. |
| `Ordering.TextLeTotal` | institution/models.py:62 | Any two texts are comparable in the text order. |
| `Ordering.TextLeTransitive` | institution/models.py:62 | The text order is transitive. |
| `Ordering.TextLeAntisymmetric` | institution/models.py:62 | Two texts that are each at most the other are equal. |
| `Models.CompletedElections` | institution/models.py:53 | `student.elections` holds exactly the elections for which the student has a completion record. |
| `Models.UnvotedMembership` | institution/models.py:58-62 | A position is open for a student if and only if it belongs to the election and the student has no ballot for a candidate of it. |
| `Models.GetUnvotedPositions` | institution/models.py:58-63 | `get_unvoted_positions` lists exactly the open positions of the election, each once, ordered by text. |
| `Models.HasBallotAfterAdd` | institution/models.py:75-77 | After a ballot for candidate `c` is added, a student has a ballot for a position exactly when they had one before, or they cast this ballot and `c` stands for that position. |
| `Models.BallotClosesItsPosition` | institution/models.py:58-62 | A ballot closes exactly its candidate's position for the voter. Every other student's open positions are unchanged. |
| `Models.OtherElectionBallotIrrelevant` | institution/models.py:59-61 | A ballot for a candidate of another election leaves the open positions of this election unchanged. |
| `Models.UnvotedNeverGrows` | institution/models.py:58-62 | Adding a ballot never reopens a position. |
| `Models.RemoveCandidates` | institution/models.py:77 | Deleting candidates removes exactly those rows, and exactly the ballots cast for them. Every surviving candidate and ballot keeps its values, and no other table changes. |
| `Models.RemoveCandidatesCascade` | institution/models.py:77 | The candidate delete cascade keeps referential integrity. A ballot survives exactly when its candidate survives. |
| `Models.RemovePositions` | institution/models.py:43 | Deleting positions removes exactly those rows, the candidates of those positions, and the ballots cast for those candidates. Every surviving row keeps its values, and no other table changes. |
| `Models.RemovePositionsCascade` | institution/models.py:43 | The position delete cascade keeps referential integrity. It removes exactly the candidates of the deleted positions and the ballots cast for them. |
| `Models.RemoveElection` | institution/models.py:35 | Deleting an election removes exactly that row, its positions with their candidates and the ballots for them, and its completion records. Every surviving row keeps its values, and no other table changes. |
| `Models.RemoveElectionCascade` | institution/models.py:34-35 | The election delete cascade keeps referential integrity. It removes exactly the election's positions and the election's completion records. |
| `Models.RemovePositionUnvoted` | institution/models.py:58-62 | Deleting a position removes it from every student's open set and changes nothing else in that set. |
| `Forms.VoteChoices` | institution/forms.py:85 | The vote form offers exactly the candidates of the position, each once, ordered by full name. |
| `Forms.VoteFormValid` | institution/forms.py:72-76 | The vote form accepts a choice if and only if one is given and it is a candidate of the offered position. |
| `Forms.SaveVotedElectionRow` | institution/models.py:69-71 | A completion row is stored if and only if both its student and its election are set. A row missing either is refused with an integrity error. |
| `Forms.SaveVoteFormAsWritten` | institution/forms.py:78-80 | Saving the vote form as written always fails. The row it builds has no election, so no ballot is ever stored. |
| `Forms.SaveVoteForm` | institution/views/students.py:96-98 | The intended ballot write always succeeds. It adds one ballot under a fresh key and closes the candidate's position for the voter in every election. |
| `Forms.HasCorrectAnswer` | institution/forms.py:61-66 | The `clean` loop finds an answer if and only if some form not marked for deletion carries `is_correct` in its cleaned data. |
| `Forms.CleanRefusesEveryFormset` | institution/forms.py:61-68 | `clean` raises on every formset, because `is_correct` is never among the cleaned fields. |
| `Forms.FormCountsAddUp` | institution/views/ec.py:161-165 | Every form of the formset is exactly one of: deleted, a blank extra, or kept. |
| `Forms.CandidateFormValid` | institution/views/ec.py:157-166 | Form `i` validates when it is a blank extra form past the first `min_num` (2), or when its name is a valid text and any candidate it names exists. The hidden key field offers every candidate, so one of another position passes and is then skipped by the save. The first two forms may not be left blank. |
| `Forms.CandidateFormsetValid` | institution/views/ec.py:157-166 | The formset validates when every form not marked for deletion validates, at most `max_num` (10) forms are not deleted (`validate_max`), and at least `min_num` (2) are neither deleted nor blank (`validate_min`). The `clean` hook is not part of it. |
| `Forms.ValidFormsetKeepsTwoToTen` | institution/views/ec.py:162-165 | A formset that passes `min_num` and `max_num` validation keeps between 2 and 10 forms, counting neither deleted forms nor blank extras. How many candidates the position then has is `EcViews.PositionChangeKeepsTwoToTen`, under its premise, since a kept form naming another position's candidate saves nothing. |
| `Forms.SignUpStudent` | institution/forms.py:22-39 | Sign-up succeeds if and only if the username is valid and free and at least one existing faculty is chosen. On success it creates a user flagged as a student, exactly one student row with those faculties, and nothing else. |
| `Forms.SignUpKeepsWellFormed` | institution/forms.py:32-38 | The atomic sign-up keeps referential integrity. |
| `StudentViews.SignUpKeepsVotingInvariant` | institution/forms.py:32-38 | Signing up a student keeps the voting invariant: integrity, one ballot per student and position, and one completion per student and election. |
| `StudentViews.UpdateFacultiesKeepsVotingInvariant` | institution/forms.py:42-48 | Changing a student's faculties keeps the voting invariant. |
| `StudentViews.ElectionList` | institution/views/students.py:53-61 | The student's list holds exactly the elections of their faculties that they have not completed and that have at least one position. |
| `StudentViews.VotedElectionList` | institution/views/students.py:70-74 | The list of completed elections holds exactly the student's own completion records, each once, ordered by election name. |
| `StudentViews.UpdateFaculties` | institution/forms.py:42-48 | The faculty form succeeds if and only if a non-empty set of existing faculties is chosen. It then replaces the student's faculties and changes nothing else. The database stays well formed. The student's election list becomes exactly the elections of the new faculties that the student has not completed and that have a position, and every other student's list is unchanged. |
| `StudentViews.RoundHalfEven` | institution/views/students.py:89 | `round` returns an integer within half a unit of `n/d`. On an exact tie it returns the even one. |
| `StudentViews.RoundWithin` | institution/views/students.py:89 | Rounding a quotient that lies between two integers gives a result between them. |
| `StudentViews.Progress` | institution/views/students.py:89 | The progress value is the nearest integer to `100 - 100*(u-1)/t`. It is 100 on the last open position and lies in 0..100 whenever 1 <= u <= t. |
| `StudentViews.NextOpenPosition` | institution/views/students.py:87-90 | There is a next position if and only if some position is open. It is the open position that comes first in text order. |
| `StudentViews.CastBallot` | institution/views/students.py:95-105 | The atomic block records the ballot through the intended vote-form write. It finishes the election if and only if no other position stays open. Finishing writes exactly one completion record and leaves nothing open. Otherwise it writes no completion record and leaves some position open. No other table changes. |
| `StudentViews.Vote` | institution/views/students.py:79-114 | A missing election gives 404, and only then. A completed election is refused, and only then. The database changes only when a ballot is accepted. |
| `StudentViews.VoteRecordsOfferedChoice` | institution/views/students.py:92-98 | An accepted ballot is the submitted candidate. That candidate stands for the position on offer, and the ballot is stored under a fresh key. |
| `StudentViews.OfferedChoiceIsCast` | institution/views/students.py:92-98 | For an election the student has not completed, a candidate of the offered position is always accepted and cast. With `VoteRecordsOfferedChoice`, a ballot is accepted if and only if it is for the offered position. |
| `StudentViews.AcceptedVoteIsCast` | institution/views/students.py:92-98 | An accepted request is a POST of a candidate of the offered, still open position, and its effect is exactly that of the atomic block. |
| `StudentViews.VoteCompletesOnLastPosition` | institution/views/students.py:99-103 | An accepted ballot finishes the election if and only if it closes the last open position. Only then is the completion record written. |
| `StudentViews.Answer` | institution/views/students.py:92-113 | Without a POST, the page shows the offered position and its choices. A POST whose choice the vote form refuses shows the page again, marked as rejected. A valid choice runs the atomic block. |
| `StudentViews.AnswerPage` | institution/views/students.py:92-113 | The vote view writes only for a POST whose choice is a candidate of the offered position. Whenever the page is shown, nothing is written, and the page carries the offered position, its choices in name order, the counts for the progress bar, and whether a POST was refused. |
| `StudentViews.VotePageOffersFirstOpenPosition` | institution/views/students.py:86-113 | The vote page shows the first open position with its candidates and writes nothing. Its progress bar is drawn from the open and total position counts, lies in 0..100, and is 100 on the last open position. A refused POST is marked as rejected. |
| `StudentViews.CompletionKeepsUnvoted` | institution/views/students.py:103 | Writing a completion record changes no student's open positions. |
| `StudentViews.FreshBallotKeepsOneBallot` | institution/views/students.py:96-98 | A ballot for a position the student has not voted keeps each student to at most one ballot per position. |
| `StudentViews.FreshCompletionKeepsOneCompletion` | institution/views/students.py:83-84 | A completion record for an election the student has not completed keeps each student to at most one completion per election. |
| `StudentViews.AddBallotKeepsWellFormed` | institution/views/students.py:96-98 | Storing a ballot of an existing student for an existing candidate keeps referential integrity. |
| `StudentViews.AddCompletionKeepsWellFormed` | institution/views/students.py:103 | Storing a completion record of an existing student for an existing election keeps referential integrity. |
| `StudentViews.CastBallotKeepsInvariant` | institution/views/students.py:95-105 | Casting a ballot for an open position of an election the student has not completed keeps three things: referential integrity, at most one ballot per student and position, and at most one completion per student and election. |
| `StudentViews.VoteKeepsInvariant` | institution/views/students.py:79-114 | Every request to the vote view keeps the voting invariant. |
| `StudentViews.CompletionIsFinal` | institution/views/students.py:83-84 | Once a vote finishes an election, every later request for that election is refused as completed and changes nothing. |
| `StudentViews.CompletedElectionRefused` | institution/views/students.py:83-84 | A request for an election the student has completed is refused and writes nothing, whatever it carries. |
| `StudentViews.DeletedOpenPositionStrandsStudent` | institution/views/students.py:86-93 | Deleting the only position a student has left open, in an election with another position, keeps the election on the student's list. Yet no position is open, so `position` is `None` and every request to the vote view fails without writing anything. The student can never complete that election. |
| `StudentViews.ListedElectionsCanBeVoted` | institution/views/students.py:57-60 | An election on the student's list has a position, so the progress formula never divides by zero. It is never refused as missing or completed, and it shows the vote page while a position is open. |
| `StudentViews.CastBallotAsWritten` | institution/views/students.py:95-105 | As written, the block succeeds only by storing the ballot, and stores nothing else. |
| `StudentViews.LastBallotLostAsWritten` | institution/views/students.py:102-105 | As written, the ballot for the last open position always fails and is rolled back. The intended block finishes the election. |
| `EcViews.OwnedElections` | institution/views/ec.py:79 | The scope of the officer's election views (`request.user.elections.all()`, also at lines 98 and 119): exactly the elections whose owner is the caller. |
| `EcViews.FindOwnedElection` | institution/views/ec.py:129 | The lookup succeeds if and only if the election exists and the caller owns it. Otherwise it is a 404. |
| `EcViews.FindOwnedPosition` | institution/views/ec.py:154-155 | The lookup succeeds if and only if the caller owns the election and the position belongs to that election. Otherwise it is a 404. |
| `EcViews.FindDeletablePosition` | institution/views/ec.py:206-207 | A position can be deleted if and only if its election is the caller's. The election in the URL is not consulted. |
| `EcViews.OfficerElectionList` | institution/views/ec.py:40-45 | The officer's list holds exactly their own elections. Each shows its number of positions and its number of completion records. |
| `EcViews.DistinctStudentsCount` | institution/views/ec.py:44 | While each student has at most one completion per election, distinct completion records belong to distinct students. |
| `EcViews.TakenCountCountsVoters` | institution/views/ec.py:44 | The "taken" count equals the number of students who completed the election. |
| `EcViews.CreateElection` | institution/views/ec.py:54-59 | Creation succeeds if and only if the name is valid and the faculty exists. The new election is owned by the caller, has a fresh key, and nothing else changes. |
| `EcViews.UpdateElection` | institution/views/ec.py:62-79 | Editing succeeds if and only if the election is the caller's own, the name is valid and the faculty exists. A missing election or another officer's is a 404, and an invalid form is refused as invalid. Editing changes only the election's name and faculty, never its owner. |
| `EcViews.DeleteElection` | institution/views/ec.py:92-98 | Only the caller's own election can be deleted, and anything else is a 404. Deleting runs the cascade. |
| `EcViews.ElectionResults` | institution/views/ec.py:107-119 | The results of the caller's own election list exactly its completion records, each once, newest first. The total is their number. |
| `EcViews.PositionAdd` | institution/views/ec.py:124-142 | Adding succeeds if and only if the election is the caller's own and the text is valid. A missing election or another officer's is a 404, and invalid text is refused as invalid. The new position has a fresh key, belongs to that election, and nothing else changes. |
| `EcViews.SaveCandidateForm` | institution/views/ec.py:174 | A kept form for a candidate of the position gives it the form's name. A kept extra form adds a candidate of the position with the form's name under the old key counter. A deleted form removes its candidate if it belongs to the position. A form naming another position's candidate is skipped, as Django saves only instances of the formset's queryset. Every other candidate keeps its key and row, and every written row is the form's candidate of the position. Only ballots for a removed candidate go, and no ballot changes. Only candidates, ballots and the key counter change. |
| `EcViews.SaveCandidateFormKeepsWellFormed` | institution/views/ec.py:174 | Saving one form of an existing position keeps referential integrity. |
| `EcViews.SaveCandidateForms` | institution/views/ec.py:174 | Saving the formset form by form changes only the candidates, the ballots and the key counter, and never lowers the counter. |
| `EcViews.SaveCandidateFormsKeepsWellFormed` | institution/views/ec.py:174 | Saving the formset of an existing position keeps referential integrity. |
| `EcViews.SavedFormsKeepOtherRows` | institution/views/ec.py:174 | Every candidate that no form names, and every candidate of another position, keeps its key and its row. |
| `EcViews.SavedFormsWriteOnlyTheirNames` | institution/views/ec.py:174 | Every candidate the save adds takes a key at or above the old counter, and every added or changed row belongs to the position and carries the name of some kept form. |
| `EcViews.SavedFormsKeepBallots` | institution/views/ec.py:174 | The save writes no ballot. A ballot survives exactly when its candidate still exists, with its row unchanged. |
| `EcViews.SavedFormsWriteEachForm` | institution/views/ec.py:174 | When the forms name existing candidates, each at most once: every kept form for a candidate of the position leaves it with the form's name, every kept extra form adds a new candidate of the position with its name, and every deleted candidate of the position is gone. |
| `EcViews.SaveCandidateFormEffect` | institution/views/ec.py:174 | A deleted form removes its candidate and a kept extra form adds one candidate under a fresh key. Every other form leaves the position's set of candidates unchanged. |
| `EcViews.SavedCandidateCount` | institution/views/ec.py:174 | After the formset is saved, the position has its candidates that no form mentions, plus one candidate per kept form. |
| `EcViews.Retitle` | institution/views/ec.py:173 | Saving the position form sets the position's text and keeps it in its election, since the form edits only `text` (forms.py:51-54). No other position and no other table changes. |
| `EcViews.RetitleKeepsWellFormed` | institution/views/ec.py:173 | Saving the position form keeps referential integrity. |
| `EcViews.PositionChange` | institution/views/ec.py:145-186 | Both lookups are scoped to the caller, and a failed lookup is a 404. The view saves if and only if the position text and the formset are both valid, and an invalid text or formset is refused as invalid, re-rendering the forms. When it saves, the position gets the new text and the database stays well formed. Only positions, candidates, ballots and the key counter change. Candidates of other positions keep their rows, and every added or changed candidate belongs to the position and carries a kept form's name. No ballot is written, and a ballot survives when its candidate does. |
| `EcViews.PositionChangeSavesEachForm` | institution/views/ec.py:170-174 | When the forms name existing candidates, each at most once, a saved change writes every kept form's name to its candidate of the position, adds a candidate for every kept extra form, and removes every deleted candidate of the position. |
| `EcViews.PositionChangeKeepsTwoToTen` | institution/views/ec.py:157-174 | When the forms list each of the position's current candidates exactly once, as the page renders the formset, plus extra forms, a saved change leaves the position with between 2 and 10 candidates. |
| `EcViews.PositionChangeAsWritten` | institution/views/ec.py:170-174 | As written, the view saves only if the formset's `clean` hook passes. |
| `EcViews.PositionChangeAsWrittenNeverSaves` | institution/views/ec.py:171 | Every change the intended view would save is refused as invalid by the view as written. |
| `EcViews.DeletePosition` | institution/views/ec.py:189-211 | A position of one of the caller's elections can be deleted, and anything else is a 404. Deleting runs the cascade. |
| `EcViews.OutOfScopeIsNotFound` | institution/views/ec.py:79 | For an election the caller does not own, every officer view that takes its key answers 404. |
| `EcViews.ForeignElectionLooksMissing` | institution/views/ec.py:98 | In the election lookup and in the update, delete and results views, another officer's election gets exactly the same answer as a missing one, so its existence does not leak. The position views are covered by `EcViews.OutOfScopeIsNotFound`. |
| `EcViews.CreateElectionKeepsWellFormed` | institution/views/ec.py:55-57 | Creating an election keeps referential integrity. |
| `EcViews.UpdateElectionKeepsWellFormed` | institution/views/ec.py:63-79 | Editing an election keeps referential integrity. |
| `EcViews.DeleteElectionKeepsWellFormed` | institution/views/ec.py:92-98 | Deleting an election keeps referential integrity. |
| `EcViews.PositionAddKeepsWellFormed` | institution/views/ec.py:134-136 | Adding a position keeps referential integrity. |
| `EcViews.DeletePositionKeepsWellFormed` | institution/views/ec.py:206-207 | Deleting a position keeps referential integrity. |
| `EcViews.CreateElectionKeepsVotingInvariant` | institution/views/ec.py:55-57 | Creating an election keeps the voting invariant. |
| `EcViews.UpdateElectionKeepsVotingInvariant` | institution/views/ec.py:63-79 | Editing an election keeps the voting invariant. |
| `EcViews.DeleteElectionKeepsVotingInvariant` | institution/views/ec.py:92-98 | Deleting an election, with its cascade to positions, candidates, ballots and completion records, keeps the voting invariant. |
| `EcViews.PositionAddKeepsVotingInvariant` | institution/views/ec.py:134-136 | Adding a position keeps the voting invariant. |
| `EcViews.PositionChangeKeepsVotingInvariant` | institution/views/ec.py:170-174 | Saving a position and its candidate formset keeps the voting invariant, although the formset rewrites candidates that ballots point to: a rewritten candidate stays in its position, and no ballot is written. |
| `EcViews.DeletePositionKeepsVotingInvariant` | institution/views/ec.py:201-207 | Deleting a position, with its cascade to candidates and ballots, keeps the voting invariant. |
| `Scenarios.FirstOfferIsFirstByText` | institution/views/students.py:87-90 | In a two-position election that the student has not started, the position first in text order is offered first. |
| `Scenarios.OutOfTurnBallotRefused` | institution/views/students.py:93-94 | A candidate of the second position, submitted while the first is offered, is refused, the page is shown again, and nothing is written. |
| `Scenarios.FirstBallotLeavesSecond` | institution/views/students.py:99-100 | The ballot for the first position is stored and leaves only the second open. The second is offered next. |
| `Scenarios.FirstBallotKeepsInvariant` | institution/views/students.py:95-100 | After the first ballot, the voting invariant holds and the election is still open to the student. |
| `Scenarios.LastOpenBallotFinishes` | institution/views/students.py:101-103 | The ballot for the only open position finishes the election. |
| `Scenarios.ForeignCandidateFormSkipped` | institution/views/ec.py:157-174 | A POST whose one initial form names a candidate of another position, followed by a new candidate "A", validates. The foreign form is skipped, and the only change to the candidates is "A" added to the position. |
| `Scenarios.TwoPositionWalkthrough` | institution/views/students.py:79-114 | The two ballots take the student through the election. After that, the election is refused as completed. |

## Left out

- HTTP is not modelled: requests, redirects, flash messages, templates, login, and the `login_required`, `student_required` and `ec_official_required` decorators. Each view takes the caller's key as a parameter, and the caller is assumed to have the right role.
- URL routing and the home page that routes by role (`institution/urls.py`, `views/institution.py`) are not part of this model.
- Candidate mugshots and uploads, and `Faculty.get_html_badge`, are not modelled because they are display-only.
- The migration that seeds the initial faculties is not modelled. Faculties are whatever the database holds.
- The student's e-mail and mobile number are not modelled, because no view reads them.
- The progress formula is not modelled with floating point. The value `round(((u - 1) / t) * 100)` is modelled as an exact rational rounded half to even. For some `u` and `t`, floating-point error in the division could move an exact `.5` tie to the other side.
- Concurrent requests are not modelled, and neither is the double submit of the same vote form. No unique constraint stops two ballots for one position. `OneBallotPerPosition` is proved only for requests that run one after another: every request to the vote view keeps it (`StudentViews.VoteKeepsInvariant`), and so does every other write of the application (the `…KeepsVotingInvariant` lemmas).
- User passwords and the username character rules of `UserCreationForm` are not modelled. A username is valid when it is non-empty and at most 150 characters.
- `CharField` whitespace stripping is not modelled. A text is valid when it is non-empty and at most 255 characters.
- Deleting users, faculties and students, and their cascades, is not modelled, because no view of the application does any of these.
- Ties in `order_by` are broken by primary key, where the database is free to choose.
- Texts are ordered by character code, as SQLite's default `BINARY` collation does. The source does not fix a collation, and a database with a locale collation orders texts differently. For example, a locale collation puts "apple" before "Banana", while character-code order puts "Banana" first.
- All tables draw keys from one counter, where each table really has its own sequence. Only freshness matters.
- `ECOfficerSignUpView` is not modelled. `views/ec.py:14` imports `ECOfficerSignUpForm`, which `forms.py` does not define, so importing `views/ec.py` fails.
- Both URL configurations import `views/ec.py` (`institution/urls.py:3` and `digital-voting/urls.py:3`). As written, that failed import means no URL of the site resolves, so no view is reachable. Every view is modelled as if that import were repaired.
- `TeacherSignUpForm` (`forms.py:10-19`) is not modelled. It sets an `is_teacher` attribute that the user model does not have, and nothing uses it.
- The `correct_answers` count at `views/students.py:102` computes no value in the model. Its query filters completion records by a `candidate` field that they do not have, so Django raises a FieldError while building it. `StudentViews.CastBallotAsWritten` models that failure. The intended `StudentViews.CastBallot` leaves out the count, whose value is never used.
- `ElectionUpdateView.get_context_data` is not modelled. It annotates positions with candidate counts for display only.
- The `ordering = ('name',)` attributes of `ElectionListView` and `ElectionsListView` are not modelled. Each view overrides `get_queryset` without ordering, so the order of their lists is unspecified. The model returns sets.
- `StudentViews.Vote`: on the paths where the view as written fails (see "## Findings"), the contract describes the intended ballot write.
- `EcViews.CreateElection` models the database write only. As written, the view then answers 500: `election.save()` at `views/ec.py:57` commits outside any atomic block, and `redirect('ec:elections_change', …)` at line 59 raises NoReverseMatch, because the URL configuration names that page `election_change` (urls.py:18). The new election stays committed, as modelled.
- `EcViews.UpdateElection` models the database write only. As written, `UpdateView.form_valid` commits `form.save()` outside any atomic block, and then `get_success_url` at `views/ec.py:82` raises NoReverseMatch on `ec:elections_change`, so the view answers 500. The edit stays committed, as modelled.
- `StudentViews.CastBallotAsWritten` states only the successful branch. The failing branch is `StudentViews.LastBallotLostAsWritten`.
- `EcViews.PositionChangeKeepsTwoToTen` holds only for a formset that lists every current candidate of the position, as the page renders it. A POST whose management form lists fewer initial forms leaves the unlisted candidates in place. The view then saves them alongside the kept forms, so a position can end up with more than 10 candidates. `EcViews.PositionChange` allows that too.
- `Forms.CandidateFormsetValid` does not refuse a formset in which two forms name the same candidate. The formset's uniqueness check skips the key field, which is not among the declared fields (`views/ec.py:161`), so Django does not refuse it either. Both forms then edit one shared instance. The model saves the forms in order, so the later form wins, and a form after a deletion of the same candidate is skipped.
- `EcViews.SavedFormsWriteEachForm` and `EcViews.PositionChangeSavesEachForm` assume forms that name existing candidates, each at most once. For a tampered POST that repeats a candidate, only the frame facts of `EcViews.PositionChange` are stated.
- `EcViews.PositionChangeAsWritten` states only that it saves when `clean` passes. That this never happens is `EcViews.PositionChangeAsWrittenNeverSaves`.

## Findings

| source | as written | input that shows it | evidently intended | confidence | as-written member | corrected member |
|---|---|---|---|---|---|---|
| institution/forms.py:79 | `VoteForm` is a model form of `VotedElection`, so `form.save(commit=False)` in the vote view builds a `VotedElection` with only the student set. | Any valid POST to the vote view. The row has a NULL `election`, the insert fails its NOT NULL constraint, and no ballot is stored. | Store a `StudentVote` for the chosen candidate, which closes that position for the student. | high, not executed | `Forms.SaveVoteFormAsWritten` | `Forms.SaveVoteForm` |
| institution/views/students.py:102-105 | This is reached only with the forms.py:79 finding repaired, since as written the ballot insert at line 98 fails first on every POST. Once the ballot closes the last open position, line 102 filters the student's completion records by `candidate`, a field that `VotedElection` does not have (models.py:69-72). Django raises a FieldError while building that query, so the completion record at line 103 is never created. With line 102 repaired, line 104 would still raise a NameError, because it formats the undefined `quiz.name`. With that repaired too, line 105 raises NoReverseMatch, still inside the atomic block: it redirects to `students:elections_list`, and the URL configuration names that page `election_list` (urls.py:9). | A ballot for the last open position of an election. The exception escapes the atomic block and the ballot is rolled back, so the student can never complete the election. | Drop the unused count, format the election's name, redirect to `students:election_list`, and keep both the ballot and the completion record. | high, not executed | `StudentViews.LastBallotLostAsWritten` | `StudentViews.CastBallot` |
| institution/forms.py:64 | The candidate formset's `clean` requires some form to have `is_correct` in its cleaned data, but the formset collects only `mugshot` and `full_name` (views/ec.py:161). | Any POST to `position_change`, for example two new candidates "A" and "B". `clean` raises, and nothing is saved. | No `is_correct` rule, so that a formset of 2 to 10 valid candidates saves. | high, not executed | `EcViews.PositionChangeAsWrittenNeverSaves` | `EcViews.PositionChange` |

=== FILE: ec_views.dfy ===
/**
 * The EC-officer side of the application. Every lookup of an election or a
 * position is restricted to the calling officer's own elections, and anything
 * outside that scope is answered exactly as a missing row: `NotFound`.
 */
module EcViews {
  import opened Outcomes
  import opened Ordering
  import opened Models
  import opened Forms
  import opened StudentViews

  // ------------------------------------------------------ owner-scoped lookups

  /** The elections officer `o` owns (`request.user.elections.all()`). */
  function OwnedElections(db: Db, o: Id): set<Id>
  {
    set e | e in db.elections && db.elections[e].owner == o
  }

  /** `get_object_or_404` over the caller's elections. */
  function FindOwnedElection(db: Db, o: Id, pk: Id): (r: Result<Election>)
    ensures r.Ok? <==> pk in db.elections && db.elections[pk].owner == o
    ensures r.Ok? ==> r.value == db.elections[pk]
    ensures r.Err? ==> r.error == NotFound
  {
    if pk in OwnedElections(db, o) then Ok(db.elections[pk]) else Err(NotFound)
  }

  /**
   * The two lookups of `position_change`: the election among the caller's,
   * then the position among that election's.
   */
  function FindOwnedPosition(db: Db, o: Id, electionPk: Id, positionPk: Id): (r: Result<Position>)
    ensures r.Ok? <==>
      && electionPk in db.elections && db.elections[electionPk].owner == o
      && positionPk in db.positions && db.positions[positionPk].election == electionPk
    ensures r.Ok? ==> r.value == db.positions[positionPk]
    ensures r.Err? ==> r.error == NotFound
  {
    match FindOwnedElection(db, o, electionPk)
    case Err(err) => Err(err)
    case Ok(_) =>
      if positionPk in PositionsOf(db, electionPk) then Ok(db.positions[positionPk]) else Err(NotFound)
  }

  /**
   * `PositionDeleteView.get_queryset`: positions whose election the caller owns.
   * The election pk in the URL is not consulted.
   */
  function FindDeletablePosition(db: Db, o: Id, positionPk: Id): (r: Result<Position>)
    ensures r.Ok? <==>
      && positionPk in db.positions
      && db.positions[positionPk].election in db.elections
      && db.elections[db.positions[positionPk].election].owner == o
    ensures r.Err? ==> r.error == NotFound
  {
    var scope := set p | p in db.positions && db.positions[p].election in OwnedElections(db, o);
    if positionPk in scope then Ok(db.positions[positionPk]) else Err(NotFound)
  }

  // ------------------------------------------------------------ election list

  /** The two counts the officer's election list shows. */
  datatype ElectionSummary = ElectionSummary(positionsCount: nat, takenCount: nat)

  /**
   * `ElectionsListView.get_queryset`: every election the officer owns, with the
   * number of distinct positions and of distinct completion records. (The
   * view's `ordering` is not applied, because `get_queryset` is overridden.)
   */
  function OfficerElectionList(db: Db, o: Id): (r: map<Id, ElectionSummary>)
    ensures r.Keys == OwnedElections(db, o)
    ensures forall e :: e in r ==>
      r[e].positionsCount == |PositionsOf(db, e)| && r[e].takenCount == |CompletionsOf(db, e)|
  {
    map e | e in OwnedElections(db, o) :: ElectionSummary(|PositionsOf(db, e)|, |CompletionsOf(db, e)|)
  }

  /** The students who completed election `e`. */
  function VotersOf(db: Db, e: Id): set<Id>
  {
    set k | k in CompletionsOf(db, e) :: db.votedElections[k].student
  }

  lemma {:induction false} DistinctStudentsCount(db: Db, e: Id, ks: set<Id>)
    requires OneCompletionPerElection(db)
    requires ks <= CompletionsOf(db, e)
    ensures |set k | k in ks :: db.votedElections[k].student| == |ks|
    decreases ks
  {
    if ks != {} {
      var k :| k in ks;
      DistinctStudentsCount(db, e, ks - {k});
      var rest := set x | x in ks - {k} :: db.votedElections[x].student;
      assert (set x | x in ks :: db.votedElections[x].student) == rest + {db.votedElections[k].student};
      assert db.votedElections[k].student !in rest;
    }
  }

  /**
   * While each student has at most one completion record per election, the
   * "taken" count of the officer's list is the number of students who
   * completed the election.
   */
  lemma TakenCountCountsVoters(db: Db, o: Id, e: Id)
    requires OneCompletionPerElection(db)
    requires e in OwnedElections(db, o)
    ensures OfficerElectionList(db, o)[e].takenCount == |VotersOf(db, e)|
  {
    DistinctStudentsCount(db, e, CompletionsOf(db, e));
  }

  // ---------------------------------------------------- election create/edit

  /**
   * `ElectionsCreateView.form_valid`: the election form (name, faculty) is
   * validated and the new election's owner is always the caller.
   */
  function CreateElection(db: Db, o: Id, name: string, faculty: Id): (r: Result<(Db, Id)>)
    requires WellFormed(db)
    ensures r.Ok? <==> TextFieldValid(name) && faculty in db.faculties
    ensures r.Err? ==> r.error == Invalid
    ensures r.Ok? ==> var (db', e) := r.value;
      && e !in db.elections
      && db'.elections == db.elections[e := Election(o, name, faculty)]
      && db' == db.(elections := db'.elections, nextId := db'.nextId)
  {
    if !TextFieldValid(name) || faculty !in db.faculties then Err(Invalid)
    else
      var e := db.nextId;
      Ok((db.(elections := db.elections[e := Election(o, name, faculty)], nextId := e + 1), e))
  }

  /**
   * `ElectionUpdateView`: the caller's own election gets a new name and
   * faculty; its owner does not change.
   */
  function UpdateElection(db: Db, o: Id, pk: Id, name: string, faculty: Id): (r: Result<Db>)
    ensures r == Err(NotFound) <==> !(pk in db.elections && db.elections[pk].owner == o)
    ensures r.Ok? <==> pk in db.elections && db.elections[pk].owner == o && TextFieldValid(name) && faculty in db.faculties
    ensures r.Err? && r.error != NotFound ==> r.error == Invalid
    ensures r.Ok? ==> r.value == db.(elections := db.elections[pk := Election(o, name, faculty)])
  {
    match FindOwnedElection(db, o, pk)
    case Err(err) => Err(err)
    case Ok(election) =>
      if !TextFieldValid(name) || faculty !in db.faculties then Err(Invalid)
      else Ok(db.(elections := db.elections[pk := election.(name := name, faculty := faculty)]))
  }

  /** `ElectionDeleteView`: deletes the caller's own election, with the cascade. */
  function DeleteElection(db: Db, o: Id, pk: Id): (r: Result<Db>)
    ensures r.Ok? <==> pk in db.elections && db.elections[pk].owner == o
    ensures r.Err? ==> r.error == NotFound
    ensures r.Ok? ==> r.value == RemoveElection(db, pk)
  {
    match FindOwnedElection(db, o, pk)
    case Err(err) => Err(err)
    case Ok(_) => Ok(RemoveElection(db, pk))
  }

  // ------------------------------------------------------------------ results

  /** The results page: the completion records, newest first, and their count. */
  datatype ResultsPage = ResultsPage(records: seq<Id>, totalVoters: nat)

  /** The sort key of `order_by('-date')`: later dates first, later keys first on a tie. */
  function NewestFirstKey(db: Db, k: Id): Key
  {
    Key("", if k in db.votedElections then -(db.votedElections[k].date as int) else 0, -(k as int))
  }

  /**
   * `ElectionResultsView`: the completion records of the caller's own election,
   * each once, newest first, and `total_voters` their number.
   */
  function ElectionResults(db: Db, o: Id, pk: Id): (r: Result<ResultsPage>)
    ensures r.Ok? <==> pk in db.elections && db.elections[pk].owner == o
    ensures r.Err? ==> r.error == NotFound
    ensures r.Ok? ==>
      && (forall k :: k in r.value.records <==> k in db.votedElections && db.votedElections[k].election == pk)
      && r.value.totalVoters == |r.value.records| == |CompletionsOf(db, pk)|
      && (forall i :: 0 <= i < |r.value.records| ==> r.value.records[i] in db.votedElections)
      && (forall i, j :: 0 <= i < j < |r.value.records| ==>
            r.value.records[i] != r.value.records[j]
            && db.votedElections[r.value.records[i]].date >= db.votedElections[r.value.records[j]].date)
  {
    match FindOwnedElection(db, o, pk)
    case Err(err) => Err(err)
    case Ok(_) =>
      var key := (k: nat) => NewestFirstKey(db, k);
      var records := SortByKey(CompletionsOf(db, pk), key);
      Ok(ResultsPage(records, |records|))
  }

  // --------------------------------------------------------------- positions

  /**
   * `position_add`: only for the caller's own election; the new position
   * belongs to that election.
   */
  function PositionAdd(db: Db, o: Id, pk: Id, text: string): (r: Result<(Db, Id)>)
    requires WellFormed(db)
    ensures r == Err(NotFound) <==> !(pk in db.elections && db.elections[pk].owner == o)
    ensures r.Ok? <==> pk in db.elections && db.elections[pk].owner == o && TextFieldValid(text)
    ensures r.Err? && r.error != NotFound ==> r.error == Invalid
    ensures r.Ok? ==> var (db', p) := r.value;
      && p !in db.positions
      && db'.positions == db.positions[p := Position(pk, text)]
      && db' == db.(positions := db'.positions, nextId := db'.nextId)
  {
    match FindOwnedElection(db, o, pk)
    case Err(err) => Err(err)
    case Ok(_) =>
      if !TextFieldValid(text) then Err(Invalid)
      else
        var p := db.nextId;
        Ok((db.(positions := db.positions[p := Position(pk, text)], nextId := p + 1), p))
  }

  /** The candidates of position `p` (`position.candidates`). */
  function CandidatesOf(db: Db, p: Id): set<Id>
  {
    set c | c in db.candidates && db.candidates[c].position == p
  }

  /**
   * Save one form of the candidate formset: a deleted form removes its
   * candidate, a changed form renames it, a filled-in extra form adds one.
   * A form naming a candidate outside the position is skipped, as Django
   * gives it an unsaved instance.
   */
  function SaveCandidateForm(db: Db, position: Id, f: CandidateForm): (r: Db)
    ensures r == db.(candidates := r.candidates, votes := r.votes, nextId := r.nextId)
    ensures r.nextId >= db.nextId
    ensures Kept(f) && f.instance.Some? && f.instance.value in CandidatesOf(db, position) ==>
      f.instance.value in r.candidates && r.candidates[f.instance.value] == Candidate(position, f.fullName)
    ensures Kept(f) && f.instance.None? ==>
      db.nextId in r.candidates && r.candidates[db.nextId] == Candidate(position, f.fullName)
    ensures f.delete && f.instance.Some? && f.instance.value in CandidatesOf(db, position) ==>
      f.instance.value !in r.candidates
    ensures forall c :: c in db.candidates && f.instance != Some(c) && c != db.nextId ==>
      c in r.candidates && r.candidates[c] == db.candidates[c]
    ensures forall c :: c in db.candidates && db.candidates[c].position != position && c != db.nextId ==>
      c in r.candidates && r.candidates[c] == db.candidates[c]
    ensures forall c :: c in r.candidates && c !in db.candidates ==> c == db.nextId < r.nextId
    ensures forall c :: c in r.candidates && (c !in db.candidates || r.candidates[c] != db.candidates[c]) ==>
      Kept(f) && r.candidates[c] == Candidate(position, f.fullName)
    ensures forall v :: v in r.votes ==> v in db.votes && r.votes[v] == db.votes[v]
    ensures forall v :: v in db.votes && db.votes[v].candidate in r.candidates ==> v in r.votes
    ensures forall v :: v in db.votes && v !in r.votes ==> db.votes[v].candidate in db.candidates
  {
    if f.delete then
      if f.instance.Some? && f.instance.value in CandidatesOf(db, position)
      then RemoveCandidates(db, {f.instance.value})
      else db
    else if UnchangedExtra(f) then db
    else match f.instance
      case Some(c) =>
        if c in CandidatesOf(db, position) then db.(candidates := db.candidates[c := Candidate(position, f.fullName)])
        else db
      case None =>
        db.(candidates := db.candidates[db.nextId := Candidate(position, f.fullName)], nextId := db.nextId + 1)
  }

  /** Saving one form of a position that exists keeps the database well formed. */
  lemma SaveCandidateFormKeepsWellFormed(db: Db, position: Id, f: CandidateForm)
    requires WellFormed(db) && position in db.positions
    ensures WellFormed(SaveCandidateForm(db, position, f))
  {
    if f.delete {
      if f.instance.Some? && f.instance.value in CandidatesOf(db, position) {
        RemoveCandidatesCascade(db, {f.instance.value});
      }
    } else if !UnchangedExtra(f) {
      if f.instance.Some? {
        if f.instance.value in CandidatesOf(db, position) {
          ReplaceCandidateKeepsWellFormed(db, f.instance.value, Candidate(position, f.fullName));
        }
      } else {
        InsertCandidateKeepsWellFormed(db, Candidate(position, f.fullName));
      }
    }
  }

  lemma ReplaceCandidateKeepsWellFormed(db: Db, c: Id, candidate: Candidate)
    requires WellFormed(db)
    requires c in db.candidates && candidate.position in db.positions
    ensures WellFormed(db.(candidates := db.candidates[c := candidate]))
  {
  }

  lemma InsertCandidateKeepsWellFormed(db: Db, candidate: Candidate)
    requires WellFormed(db)
    requires candidate.position in db.positions
    ensures WellFormed(db.(candidates := db.candidates[db.nextId := candidate], nextId := db.nextId + 1))
  {
  }

  /**
   * `formset.save()`: each form in turn deletes, updates or creates a candidate
   * of `position`; blank extra forms are skipped.
   */
  function SaveCandidateForms(db: Db, position: Id, forms: seq<CandidateForm>): (r: Db)
    ensures r == db.(candidates := r.candidates, votes := r.votes, nextId := r.nextId)
    ensures r.nextId >= db.nextId
    decreases |forms|
  {
    if |forms| == 0 then db
    else SaveCandidateForms(SaveCandidateForm(db, position, forms[0]), position, forms[1..])
  }

  /** Saving the formset of a position that exists keeps the database well formed. */
  lemma {:induction false} SaveCandidateFormsKeepsWellFormed(db: Db, position: Id, forms: seq<CandidateForm>)
    requires WellFormed(db) && position in db.positions
    ensures WellFormed(SaveCandidateForms(db, position, forms))
    decreases |forms|
  {
    if |forms| > 0 {
      SaveCandidateFormKeepsWellFormed(db, position, forms[0]);
      SaveCandidateFormsKeepsWellFormed(SaveCandidateForm(db, position, forms[0]), position, forms[1..]);
    }
  }

  /** Every candidate key is below the key counter, so the next insert is fresh. */
  ghost predicate CandidateKeysFresh(db: Db)
  {
    forall c :: c in db.candidates ==> c < db.nextId
  }

  /**
   * Saving the formset leaves alone every candidate no form names and every
   * candidate of another position: each keeps its key and its row.
   */
  lemma {:induction false} SavedFormsKeepOtherRows(db: Db, position: Id, forms: seq<CandidateForm>)
    requires CandidateKeysFresh(db)
    ensures var r := SaveCandidateForms(db, position, forms);
      && (forall c :: c in db.candidates && c !in InstanceIds(forms) ==>
            c in r.candidates && r.candidates[c] == db.candidates[c])
      && (forall c :: c in db.candidates && db.candidates[c].position != position ==>
            c in r.candidates && r.candidates[c] == db.candidates[c])
    decreases |forms|
  {
    if |forms| > 0 {
      var db1 := SaveCandidateForm(db, position, forms[0]);
      assert CandidateKeysFresh(db1);
      SavedFormsKeepOtherRows(db1, position, forms[1..]);
      assert InstanceIds(forms) == (if forms[0].instance.Some? then {forms[0].instance.value} else {}) + InstanceIds(forms[1..]);
    }
  }

  /**
   * Every candidate row the save adds or changes belongs to the position and
   * carries the name of a kept form, and every added key is fresh.
   */
  lemma {:induction false} SavedFormsWriteOnlyTheirNames(db: Db, position: Id, forms: seq<CandidateForm>)
    requires CandidateKeysFresh(db)
    ensures var r := SaveCandidateForms(db, position, forms);
      && (forall c :: c in r.candidates && c !in db.candidates ==> c >= db.nextId)
      && (forall c :: c in r.candidates && (c !in db.candidates || r.candidates[c] != db.candidates[c]) ==>
            r.candidates[c].position == position && r.candidates[c].fullName in KeptNames(forms))
    decreases |forms|
  {
    if |forms| > 0 {
      var db1 := SaveCandidateForm(db, position, forms[0]);
      assert CandidateKeysFresh(db1);
      SavedFormsWriteOnlyTheirNames(db1, position, forms[1..]);
      assert KeptNames(forms) == (if Kept(forms[0]) then {forms[0].fullName} else {}) + KeptNames(forms[1..]);
    }
  }

  /**
   * The save writes no ballot, and a ballot is removed only with its
   * candidate: a ballot whose candidate is still there after the save is too.
   */
  lemma {:induction false} SavedFormsKeepBallots(db: Db, position: Id, forms: seq<CandidateForm>)
    requires CandidateKeysFresh(db)
    ensures var r := SaveCandidateForms(db, position, forms);
      && (forall v :: v in r.votes ==> v in db.votes && r.votes[v] == db.votes[v])
      && (forall v :: v in db.votes && db.votes[v].candidate in r.candidates ==> v in r.votes)
    decreases |forms|
  {
    if |forms| > 0 {
      var db1 := SaveCandidateForm(db, position, forms[0]);
      assert CandidateKeysFresh(db1);
      SavedFormsKeepBallots(db1, position, forms[1..]);
      SavedFormsWriteOnlyTheirNames(db1, position, forms[1..]);
    }
  }

  /**
   * For forms that name existing candidates, each at most once, the save
   * writes every kept form and removes every deleted candidate of the position.
   */
  lemma {:induction false} SavedFormsWriteEachForm(db: Db, position: Id, forms: seq<CandidateForm>)
    requires CandidateKeysFresh(db)
    requires DistinctInstances(forms)
    requires InstanceIds(forms) <= db.candidates.Keys
    ensures var r := SaveCandidateForms(db, position, forms);
      && (forall i :: 0 <= i < |forms| && Kept(forms[i]) && forms[i].instance.Some? && forms[i].instance.value in CandidatesOf(db, position) ==>
            forms[i].instance.value in r.candidates && r.candidates[forms[i].instance.value] == Candidate(position, forms[i].fullName))
      && (forall i :: 0 <= i < |forms| && Kept(forms[i]) && forms[i].instance.None? ==>
            exists c :: c !in db.candidates && c in r.candidates && r.candidates[c] == Candidate(position, forms[i].fullName))
      && (forall i :: 0 <= i < |forms| && forms[i].delete && forms[i].instance.Some? && forms[i].instance.value in CandidatesOf(db, position) ==>
            forms[i].instance.value !in r.candidates)
    decreases |forms|
  {
    if |forms| > 0 {
      var f := forms[0];
      var rest := forms[1..];
      var db1 := SaveCandidateForm(db, position, f);
      var r := SaveCandidateForms(db1, position, rest);
      assert SaveCandidateForms(db, position, forms) == r;
      assert CandidateKeysFresh(db1);
      DistinctInstancesTail(forms);
      HeadInstanceNotInTail(forms);
      assert InstanceIds(forms) == (if f.instance.Some? then {f.instance.value} else {}) + InstanceIds(rest);
      forall c | c in InstanceIds(rest)
        ensures c in db1.candidates
      {
        assert c in db.candidates && f.instance != Some(c) && c != db.nextId;
      }
      SavedFormsWriteEachForm(db1, position, rest);
      SavedFormsKeepOtherRows(db1, position, rest);
      SavedFormsWriteOnlyTheirNames(db1, position, rest);
      forall i | 0 <= i < |forms| && Kept(forms[i]) && forms[i].instance.Some? && forms[i].instance.value in CandidatesOf(db, position)
        ensures forms[i].instance.value in r.candidates && r.candidates[forms[i].instance.value] == Candidate(position, forms[i].fullName)
      {
        var c := forms[i].instance.value;
        if i > 0 {
          assert forms[i] == rest[i - 1];
          assert f.instance != Some(c);
          assert c in CandidatesOf(db1, position);
        }
      }
      forall i | 0 <= i < |forms| && Kept(forms[i]) && forms[i].instance.None?
        ensures exists c :: c !in db.candidates && c in r.candidates && r.candidates[c] == Candidate(position, forms[i].fullName)
      {
        if i == 0 {
          assert db.nextId !in InstanceIds(rest);
          assert db.nextId !in db.candidates && db.nextId in r.candidates;
        } else {
          assert forms[i] == rest[i - 1];
          var c :| c !in db1.candidates && c in r.candidates && r.candidates[c] == Candidate(position, forms[i].fullName);
          assert c >= db1.nextId;
        }
      }
      forall i | 0 <= i < |forms| && forms[i].delete && forms[i].instance.Some? && forms[i].instance.value in CandidatesOf(db, position)
        ensures forms[i].instance.value !in r.candidates
      {
        var c := forms[i].instance.value;
        if i > 0 {
          assert forms[i] == rest[i - 1];
          assert f.instance != Some(c);
          assert c in CandidatesOf(db1, position);
        } else {
          assert c < db.nextId <= db1.nextId;
        }
      }
    }
  }

  /** The candidates the forms edit or delete. */
  function InstanceIds(forms: seq<CandidateForm>): set<Id>
  {
    if |forms| == 0 then {}
    else (if forms[0].instance.Some? then {forms[0].instance.value} else {}) + InstanceIds(forms[1..])
  }

  /** No candidate appears in two forms. */
  predicate DistinctInstances(forms: seq<CandidateForm>)
  {
    forall i, j :: 0 <= i < j < |forms| && forms[i].instance.Some? && forms[j].instance.Some? ==>
      forms[i].instance.value != forms[j].instance.value
  }

  /** What saving one form does to the position's candidates. */
  lemma SaveCandidateFormEffect(db: Db, position: Id, f: CandidateForm)
    requires WellFormed(db) && position in db.positions
    requires f.instance.Some? ==> f.instance.value in CandidatesOf(db, position)
    ensures var after := CandidatesOf(SaveCandidateForm(db, position, f), position);
      && (f.delete && f.instance.Some? ==> after == CandidatesOf(db, position) - {f.instance.value})
      && (Kept(f) && f.instance.None? ==>
            db.nextId !in CandidatesOf(db, position) && after == CandidatesOf(db, position) + {db.nextId})
      && (!(f.delete && f.instance.Some?) && !(Kept(f) && f.instance.None?) ==> after == CandidatesOf(db, position))
    ensures SaveCandidateForm(db, position, f).nextId >= db.nextId
  {
    var db1 := SaveCandidateForm(db, position, f);
    if f.delete {
      if f.instance.Some? {
        assert db1 == RemoveCandidates(db, {f.instance.value});
      }
    } else if !UnchangedExtra(f) && f.instance.None? {
      assert db.nextId !in db.candidates;
    }
  }

  /**
   * Saving the forms leaves the position with its candidates that no form
   * mentions, plus one candidate per kept form.
   */
  lemma {:induction false} SavedCandidateCount(db: Db, position: Id, forms: seq<CandidateForm>)
    requires WellFormed(db) && position in db.positions
    requires DistinctInstances(forms)
    requires InstanceIds(forms) <= CandidatesOf(db, position)
    ensures |CandidatesOf(SaveCandidateForms(db, position, forms), position)|
      == |CandidatesOf(db, position) - InstanceIds(forms)| + KeptCount(forms)
    decreases |forms|
  {
    if |forms| > 0 {
      var f := forms[0];
      var rest := forms[1..];
      var db1 := SaveCandidateForm(db, position, f);
      SaveCandidateFormKeepsWellFormed(db, position, f);
      DistinctInstancesTail(forms);
      HeadInstanceNotInTail(forms);
      SaveCandidateFormEffect(db, position, f);
      assert InstanceIds(forms) == (if f.instance.Some? then {f.instance.value} else {}) + InstanceIds(rest);
      assert KeptCount(forms) == (if Kept(f) then 1 else 0) + KeptCount(rest);
      InstanceIdsBelow(db, rest);
      CountStep(CandidatesOf(db, position), CandidatesOf(db1, position), InstanceIds(forms), InstanceIds(rest), f, db.nextId);
      SavedCandidateCount(db1, position, rest);
    }
  }

  /** The set arithmetic of one step of `SavedCandidateCount`. */
  lemma CountStep(before: set<Id>, after: set<Id>, all: set<Id>, later: set<Id>, f: CandidateForm, newKey: Id)
    requires all == (if f.instance.Some? then {f.instance.value} else {}) + later
    requires all <= before
    requires f.instance.Some? ==> f.instance.value !in later
    requires newKey !in later
    requires f.delete && f.instance.Some? ==> after == before - {f.instance.value}
    requires Kept(f) && f.instance.None? ==> newKey !in before && after == before + {newKey}
    requires !(f.delete && f.instance.Some?) && !(Kept(f) && f.instance.None?) ==> after == before
    ensures later <= after
    ensures |after - later| == |before - all| + (if Kept(f) then 1 else 0)
  {
    if f.delete && f.instance.Some? {
      assert after - later == before - all;
    } else if Kept(f) && f.instance.None? {
      assert after - later == (before - all) + {newKey};
    } else if Kept(f) {
      assert after - later == (before - all) + {f.instance.value};
    } else {
      assert after - later == before - all;
    }
  }

  lemma DistinctInstancesTail(forms: seq<CandidateForm>)
    requires |forms| > 0 && DistinctInstances(forms)
    ensures DistinctInstances(forms[1..])
  {
    var rest := forms[1..];
    forall i, j | 0 <= i < j < |rest| && rest[i].instance.Some? && rest[j].instance.Some?
      ensures rest[i].instance.value != rest[j].instance.value
    {
      assert rest[i] == forms[i + 1] && rest[j] == forms[j + 1];
    }
  }

  lemma HeadInstanceNotInTail(forms: seq<CandidateForm>)
    requires |forms| > 0 && DistinctInstances(forms)
    ensures forms[0].instance.Some? ==> forms[0].instance.value !in InstanceIds(forms[1..])
  {
    InstanceIdsMembers(forms[1..]);
  }

  lemma {:induction false} InstanceIdsMembers(forms: seq<CandidateForm>)
    ensures forall c :: c in InstanceIds(forms) ==> exists j :: 0 <= j < |forms| && forms[j].instance == Some(c)
    decreases |forms|
  {
    if |forms| > 0 {
      InstanceIdsMembers(forms[1..]);
      forall c | c in InstanceIds(forms)
        ensures exists j :: 0 <= j < |forms| && forms[j].instance == Some(c)
      {
        if forms[0].instance != Some(c) {
          var j :| 0 <= j < |forms[1..]| && forms[1..][j].instance == Some(c);
          assert forms[j + 1].instance == Some(c);
        }
      }
    }
  }

  lemma InstanceIdsBelow(db: Db, forms: seq<CandidateForm>)
    requires WellFormed(db)
    requires InstanceIds(forms) <= db.candidates.Keys
    ensures db.nextId !in InstanceIds(forms)
  {
  }

  /**
   * `PositionForm.save()`: the form edits only `text`, so the position gets its
   * new text, stays in its election, and nothing else changes.
   */
  function Retitle(db: Db, positionPk: Id, text: string): (r: Db)
    requires positionPk in db.positions
    ensures r.positions.Keys == db.positions.Keys
    ensures r.positions[positionPk] == Position(db.positions[positionPk].election, text)
    ensures forall p :: p in r.positions && p != positionPk ==> r.positions[p] == db.positions[p]
    ensures r == db.(positions := r.positions)
  {
    db.(positions := db.positions[positionPk := db.positions[positionPk].(text := text)])
  }

  lemma RetitleKeepsWellFormed(db: Db, positionPk: Id, text: string)
    requires WellFormed(db) && positionPk in db.positions
    ensures WellFormed(Retitle(db, positionPk, text))
  {
  }

  /**
   * `position_change` with the formset as intended (without the `is_correct`
   * rule): both lookups are scoped to the caller, and the position text and
   * the candidates are saved together only when the position form and the
   * formset are both valid.
   */
  function PositionChange(db: Db, o: Id, electionPk: Id, positionPk: Id, text: string, forms: seq<CandidateForm>): (r: Result<Db>)
    requires WellFormed(db)
    ensures r == Err(NotFound) <==> FindOwnedPosition(db, o, electionPk, positionPk).Err?
    ensures r.Ok? <==>
      (FindOwnedPosition(db, o, electionPk, positionPk).Ok?
       && TextFieldValid(text) && CandidateFormsetValid(db, positionPk, forms))
    ensures r.Err? && r.error != NotFound ==> r.error == Invalid
    ensures r.Ok? ==> WellFormed(r.value) && r.value.positions == db.positions[positionPk := Position(electionPk, text)]
    ensures r.Ok? ==>
      r.value == db.(positions := r.value.positions, candidates := r.value.candidates, votes := r.value.votes, nextId := r.value.nextId)
    ensures r.Ok? ==> forall c :: c in db.candidates && db.candidates[c].position != positionPk ==>
      c in r.value.candidates && r.value.candidates[c] == db.candidates[c]
    ensures r.Ok? ==> forall c :: c in r.value.candidates && (c !in db.candidates || r.value.candidates[c] != db.candidates[c]) ==>
      r.value.candidates[c].position == positionPk && r.value.candidates[c].fullName in KeptNames(forms)
    ensures r.Ok? ==> forall v :: v in r.value.votes ==> v in db.votes && r.value.votes[v] == db.votes[v]
    ensures r.Ok? ==> forall v :: v in db.votes && db.votes[v].candidate in r.value.candidates ==> v in r.value.votes
  {
    match FindOwnedPosition(db, o, electionPk, positionPk)
    case Err(err) => Err(err)
    case Ok(position) =>
      if !TextFieldValid(text) || !CandidateFormsetValid(db, positionPk, forms) then Err(Invalid)
      else
        var db1 := Retitle(db, positionPk, text);
        RetitleKeepsWellFormed(db, positionPk, text);
        SaveCandidateFormsKeepsWellFormed(db1, positionPk, forms);
        SavedFormsKeepOtherRows(db1, positionPk, forms);
        SavedFormsWriteOnlyTheirNames(db1, positionPk, forms);
        SavedFormsKeepBallots(db1, positionPk, forms);
        Ok(SaveCandidateForms(db1, positionPk, forms))
  }

  /**
   * For a formset whose forms name existing candidates, each at most once, a
   * saved change writes every kept form: an edited candidate of the position
   * gets the form's name, an extra form adds a new candidate of the position
   * under that name, and a deleted candidate of the position is gone.
   */
  lemma PositionChangeSavesEachForm(db: Db, o: Id, electionPk: Id, positionPk: Id, text: string, forms: seq<CandidateForm>)
    requires WellFormed(db)
    requires DistinctInstances(forms)
    requires InstanceIds(forms) <= db.candidates.Keys
    requires PositionChange(db, o, electionPk, positionPk, text, forms).Ok?
    ensures var r := PositionChange(db, o, electionPk, positionPk, text, forms).value;
      && (forall i :: 0 <= i < |forms| && Kept(forms[i]) && forms[i].instance.Some? && forms[i].instance.value in CandidatesOf(db, positionPk) ==>
            forms[i].instance.value in r.candidates && r.candidates[forms[i].instance.value] == Candidate(positionPk, forms[i].fullName))
      && (forall i :: 0 <= i < |forms| && Kept(forms[i]) && forms[i].instance.None? ==>
            exists c :: c !in db.candidates && c in r.candidates && r.candidates[c] == Candidate(positionPk, forms[i].fullName))
      && (forall i :: 0 <= i < |forms| && forms[i].delete && forms[i].instance.Some? && forms[i].instance.value in CandidatesOf(db, positionPk) ==>
            forms[i].instance.value !in r.candidates)
  {
    var db1 := Retitle(db, positionPk, text);
    assert PositionChange(db, o, electionPk, positionPk, text, forms).value == SaveCandidateForms(db1, positionPk, forms);
    assert db1.candidates == db.candidates;
    SavedFormsWriteEachForm(db1, positionPk, forms);
  }

  /**
   * When the forms are the position's candidates, each once (as the formset
   * renders them), plus extra forms, a saved position has 2 to 10 candidates.
   */
  lemma PositionChangeKeepsTwoToTen(db: Db, o: Id, electionPk: Id, positionPk: Id, text: string, forms: seq<CandidateForm>)
    requires WellFormed(db)
    requires DistinctInstances(forms)
    requires InstanceIds(forms) == CandidatesOf(db, positionPk)
    requires PositionChange(db, o, electionPk, positionPk, text, forms).Ok?
    ensures var db' := PositionChange(db, o, electionPk, positionPk, text, forms).value;
      MinCandidates <= |CandidatesOf(db', positionPk)| <= MaxCandidates
  {
    var db1 := Retitle(db, positionPk, text);
    RetitleKeepsWellFormed(db, positionPk, text);
    assert PositionChange(db, o, electionPk, positionPk, text, forms).value == SaveCandidateForms(db1, positionPk, forms);
    assert CandidatesOf(db1, positionPk) == CandidatesOf(db, positionPk);
    SavedCandidateCount(db1, positionPk, forms);
    ValidFormsetKeepsTwoToTen(db, positionPk, forms);
  }

  /** `position_change` as written: the formset's `clean` hook takes part in validation. */
  function PositionChangeAsWritten(db: Db, o: Id, electionPk: Id, positionPk: Id, text: string, forms: seq<CandidateForm>): (r: Result<Db>)
    requires WellFormed(db)
    ensures r.Ok? ==> CandidateFormsetValidAsWritten(db, positionPk, forms)
  {
    match FindOwnedPosition(db, o, electionPk, positionPk)
    case Err(err) => Err(err)
    case Ok(position) =>
      if !TextFieldValid(text) || !CandidateFormsetValidAsWritten(db, positionPk, forms) then Err(Invalid)
      else
        RetitleKeepsWellFormed(db, positionPk, text);
        Ok(SaveCandidateForms(Retitle(db, positionPk, text), positionPk, forms))
  }

  /**
   * As written, `position_change` never saves: a request the intended view
   * accepts is refused as invalid, because the `clean` hook asks for an
   * `is_correct` value the formset never collects.
   */
  lemma PositionChangeAsWrittenNeverSaves(db: Db, o: Id, electionPk: Id, positionPk: Id, text: string, forms: seq<CandidateForm>)
    requires WellFormed(db)
    requires PositionChange(db, o, electionPk, positionPk, text, forms).Ok?
    ensures PositionChangeAsWritten(db, o, electionPk, positionPk, text, forms) == Err(Invalid)
  {
    CleanRefusesEveryFormset(forms);
  }

  /** `PositionDeleteView`: deletes a position of one of the caller's elections, with the cascade. */
  function DeletePosition(db: Db, o: Id, positionPk: Id): (r: Result<Db>)
    ensures r.Ok? <==> FindDeletablePosition(db, o, positionPk).Ok?
    ensures r.Err? ==> r.error == NotFound
    ensures r.Ok? ==> r.value == RemovePositions(db, {positionPk})
  {
    match FindDeletablePosition(db, o, positionPk)
    case Err(err) => Err(err)
    case Ok(_) => Ok(RemovePositions(db, {positionPk}))
  }

  // ----------------------------------------------------------- access control

  /**
   * An election outside the caller's scope is answered as "not found" by every
   * officer view that takes an election pk, exactly as a missing election is.
   */
  lemma OutOfScopeIsNotFound(db: Db, o: Id, pk: Id, name: string, faculty: Id, text: string, positionPk: Id, forms: seq<CandidateForm>)
    requires WellFormed(db)
    requires pk !in OwnedElections(db, o)
    ensures UpdateElection(db, o, pk, name, faculty) == Err(NotFound)
    ensures DeleteElection(db, o, pk) == Err(NotFound)
    ensures ElectionResults(db, o, pk) == Err(NotFound)
    ensures PositionAdd(db, o, pk, text) == Err(NotFound)
    ensures PositionChange(db, o, pk, positionPk, text, forms) == Err(NotFound)
  {
  }

  /**
   * Another officer's election cannot be told apart from a missing one: every
   * officer view answers the same as it would if the row did not exist.
   */
  lemma ForeignElectionLooksMissing(db: Db, o: Id, pk: Id, name: string, faculty: Id)
    requires WellFormed(db)
    requires pk in db.elections && db.elections[pk].owner != o
    ensures var hidden := db.(elections := db.elections - {pk});
      && FindOwnedElection(db, o, pk) == FindOwnedElection(hidden, o, pk)
      && UpdateElection(db, o, pk, name, faculty) == UpdateElection(hidden, o, pk, name, faculty)
      && DeleteElection(db, o, pk) == DeleteElection(hidden, o, pk)
      && ElectionResults(db, o, pk) == ElectionResults(hidden, o, pk)
  {
  }

  /** The officer views that write keep the database well formed. */
  lemma CreateElectionKeepsWellFormed(db: Db, o: Id, name: string, faculty: Id)
    requires WellFormed(db)
    requires o in db.users
    ensures CreateElection(db, o, name, faculty).Ok? ==> WellFormed(CreateElection(db, o, name, faculty).value.0)
  {
  }

  lemma UpdateElectionKeepsWellFormed(db: Db, o: Id, pk: Id, name: string, faculty: Id)
    requires WellFormed(db)
    ensures UpdateElection(db, o, pk, name, faculty).Ok? ==> WellFormed(UpdateElection(db, o, pk, name, faculty).value)
  {
  }

  lemma DeleteElectionKeepsWellFormed(db: Db, o: Id, pk: Id)
    requires WellFormed(db)
    ensures DeleteElection(db, o, pk).Ok? ==> WellFormed(DeleteElection(db, o, pk).value)
  {
    RemoveElectionCascade(db, pk);
  }

  lemma PositionAddKeepsWellFormed(db: Db, o: Id, pk: Id, text: string)
    requires WellFormed(db)
    ensures PositionAdd(db, o, pk, text).Ok? ==> WellFormed(PositionAdd(db, o, pk, text).value.0)
  {
  }

  lemma DeletePositionKeepsWellFormed(db: Db, o: Id, positionPk: Id)
    requires WellFormed(db)
    ensures DeletePosition(db, o, positionPk).Ok? ==> WellFormed(DeletePosition(db, o, positionPk).value)
  {
    RemovePositionsCascade(db, {positionPk});
  }

  // ------------------------------------------------- officer writes and votes

  /** Creating an election keeps the voting invariant. */
  lemma CreateElectionKeepsVotingInvariant(db: Db, o: Id, name: string, faculty: Id)
    requires VotingInvariant(db)
    requires o in db.users
    ensures CreateElection(db, o, name, faculty).Ok? ==> VotingInvariant(CreateElection(db, o, name, faculty).value.0)
  {
    var r := CreateElection(db, o, name, faculty);
    if r.Ok? {
      CreateElectionKeepsWellFormed(db, o, name, faculty);
      VotingInvariantFrame(db, r.value.0);
    }
  }

  /** Editing an election keeps the voting invariant. */
  lemma UpdateElectionKeepsVotingInvariant(db: Db, o: Id, pk: Id, name: string, faculty: Id)
    requires VotingInvariant(db)
    ensures UpdateElection(db, o, pk, name, faculty).Ok? ==> VotingInvariant(UpdateElection(db, o, pk, name, faculty).value)
  {
    var r := UpdateElection(db, o, pk, name, faculty);
    if r.Ok? {
      UpdateElectionKeepsWellFormed(db, o, pk, name, faculty);
      VotingInvariantFrame(db, r.value);
    }
  }

  /** Deleting an election, with its cascade, keeps the voting invariant. */
  lemma DeleteElectionKeepsVotingInvariant(db: Db, o: Id, pk: Id)
    requires VotingInvariant(db)
    ensures DeleteElection(db, o, pk).Ok? ==> VotingInvariant(DeleteElection(db, o, pk).value)
  {
    var r := DeleteElection(db, o, pk);
    if r.Ok? {
      DeleteElectionKeepsWellFormed(db, o, pk);
      VotingInvariantFrame(db, r.value);
    }
  }

  /** Adding a position keeps the voting invariant. */
  lemma PositionAddKeepsVotingInvariant(db: Db, o: Id, pk: Id, text: string)
    requires VotingInvariant(db)
    ensures PositionAdd(db, o, pk, text).Ok? ==> VotingInvariant(PositionAdd(db, o, pk, text).value.0)
  {
    var r := PositionAdd(db, o, pk, text);
    if r.Ok? {
      PositionAddKeepsWellFormed(db, o, pk, text);
      VotingInvariantFrame(db, r.value.0);
    }
  }

  /**
   * Saving a position and its candidates keeps the voting invariant: a
   * rewritten candidate stays in its position, a new one has no ballot, and no
   * ballot is written.
   */
  lemma PositionChangeKeepsVotingInvariant(db: Db, o: Id, electionPk: Id, positionPk: Id, text: string, forms: seq<CandidateForm>)
    requires VotingInvariant(db)
    ensures PositionChange(db, o, electionPk, positionPk, text, forms).Ok? ==>
      VotingInvariant(PositionChange(db, o, electionPk, positionPk, text, forms).value)
  {
    var r := PositionChange(db, o, electionPk, positionPk, text, forms);
    if r.Ok? {
      forall c | c in r.value.candidates && c in db.candidates
        ensures r.value.candidates[c].position == db.candidates[c].position
      {
        if db.candidates[c].position != positionPk {
          assert r.value.candidates[c] == db.candidates[c];
        }
      }
      VotingInvariantFrame(db, r.value);
    }
  }

  /** Deleting a position, with its cascade, keeps the voting invariant. */
  lemma DeletePositionKeepsVotingInvariant(db: Db, o: Id, positionPk: Id)
    requires VotingInvariant(db)
    ensures DeletePosition(db, o, positionPk).Ok? ==> VotingInvariant(DeletePosition(db, o, positionPk).value)
  {
    var r := DeletePosition(db, o, positionPk);
    if r.Ok? {
      DeletePositionKeepsWellFormed(db, o, positionPk);
      VotingInvariantFrame(db, r.value);
    }
  }
}

=== FILE: forms.dfy ===
/**
 * The forms of the `institution` application: the vote form, the candidate
 * inline formset, the student sign-up form and the faculty form.
 */
module Forms {
  import opened Outcomes
  import opened Ordering
  import opened Models

  /** `max_length` of every text column the forms edit (election name, position text, candidate name). */
  const MaxTextLength := 255

  /** `max_length` of the username column of the user model. */
  const MaxUsernameLength := 150

  /** A required `CharField` with `max_length=255` accepts `text`. */
  predicate TextFieldValid(text: string)
  {
    0 < |text| <= MaxTextLength
  }

  // ---------------------------------------------------------------- VoteForm

  /** The sort key of a candidate: full name, then primary key. */
  function CandidateKey(db: Db, c: Id): Key
  {
    Key(if c in db.candidates then db.candidates[c].fullName else "", 0, c)
  }

  /**
   * The choices `VoteForm` offers for `position`: exactly the candidates of that
   * position, each once, ordered by full name.
   */
  function VoteChoices(db: Db, position: Id): (r: seq<Id>)
    ensures forall c :: c in r <==> c in db.candidates && db.candidates[c].position == position
    ensures forall i :: 0 <= i < |r| ==> r[i] in db.candidates
    ensures forall i, j :: 0 <= i < j < |r| ==>
      r[i] != r[j] && TextLe(db.candidates[r[i]].fullName, db.candidates[r[j]].fullName)
  {
    var key := (c: nat) => CandidateKey(db, c);
    var s := set c | c in db.candidates && db.candidates[c].position == position;
    SortedByText(s, key);
    SortByKey(s, key)
  }

  /**
   * `VoteForm(position=position).is_valid()`: the field is required, so a
   * missing choice is refused, and only a candidate of `position` is accepted.
   */
  function VoteFormValid(db: Db, position: Id, choice: Option<Id>): (ok: bool)
    ensures ok <==> choice.Some? && choice.value in db.candidates && db.candidates[choice.value].position == position
  {
    choice.Some? && choice.value in VoteChoices(db, position)
  }

  /**
   * The unsaved row `VoteForm.save(commit=False)` builds. The form's model is
   * `VotedElection`, which has no `candidate` column, so the chosen candidate is
   * dropped and the row has no election; the vote view then sets the student.
   */
  datatype UnsavedVotedElection = UnsavedVotedElection(student: Option<Id>, election: Option<Id>)

  /**
   * Saving an unsaved `VotedElection`: both foreign-key columns are NOT NULL,
   * so a row missing either is refused by the database with an integrity error.
   */
  function SaveVotedElectionRow(db: Db, row: UnsavedVotedElection, date: nat): (r: Result<Db>)
    ensures r.Ok? <==> row.student.Some? && row.election.Some?
  {
    match (row.student, row.election)
    case (Some(s), Some(e)) => Ok(AddCompletion(db, s, e, date))
    case _ => Err(ServerError)
  }

  /**
   * The ballot write of the vote view as written: it saves the form's
   * `VotedElection` row with only the student set, which the database refuses,
   * so the atomic block is rolled back and no ballot is ever recorded.
   */
  function SaveVoteFormAsWritten(db: Db, s: Id, c: Id, date: nat): (r: Result<Db>)
    ensures r == Err(ServerError)
  {
    SaveVotedElectionRow(db, UnsavedVotedElection(Some(s), None), date)
  }

  /**
   * The ballot write the vote view intends: a `StudentVote` for the chosen
   * candidate, after which the candidate's position is closed for the student.
   */
  function SaveVoteForm(db: Db, s: Id, c: Id): (r: Result<Db>)
    requires WellFormed(db)
    requires c in db.candidates
    ensures r.Ok?
    ensures r.value.votes == db.votes[db.nextId := StudentVote(s, c)]
    ensures forall e :: UnvotedPositionSet(r.value, s, e) == UnvotedPositionSet(db, s, e) - {db.candidates[c].position}
  {
    BallotClosesItsPositionEverywhere(db, s, c);
    Ok(AddBallot(db, s, c))
  }

  // ------------------------------------------------------- candidate formset

  /** `min_num` and `max_num` of the candidate formset. */
  const MinCandidates := 2
  const MaxCandidates := 10

  /**
   * One form of the candidate inline formset as submitted: the candidate it
   * edits (`None` for an extra form), the name, the DELETE box, and whatever
   * the client posted under `is_correct`.
   */
  datatype CandidateForm = CandidateForm(instance: Option<Id>, fullName: string, delete: bool, postedIsCorrect: bool)

  /** The fields the formset collects (`fields=('mugshot', 'full_name')`). */
  const CandidateFormFields: set<string> := {"mugshot", "full_name"}

  /**
   * `form.cleaned_data.get('is_correct', False)`: a posted value reaches
   * `cleaned_data` only if the formset collects that field.
   */
  predicate CleanedIsCorrect(f: CandidateForm)
  {
    "is_correct" in CandidateFormFields && f.postedIsCorrect
  }

  /**
   * The loop of `BaseCandidateInlineFormSet.clean`: some form not marked for
   * deletion has `is_correct` set; forms marked for deletion are skipped.
   * The recursion follows the loop form by form. Because `CleanedIsCorrect`
   * is false for every form, the answer is always false
   * (`CleanRefusesEveryFormset`), and Dafny sees that without the recursion.
   */
  function HasCorrectAnswer(forms: seq<CandidateForm>): (b: bool)
    ensures b <==> exists i :: 0 <= i < |forms| && !forms[i].delete && CleanedIsCorrect(forms[i])
  {
    if |forms| == 0 then false
    else if !forms[0].delete && CleanedIsCorrect(forms[0]) then true
    else
      var rest := HasCorrectAnswer(forms[1..]);
      assert forall i :: 1 <= i < |forms| ==> forms[i] == forms[1..][i - 1];
      rest
  }

  /** Since `is_correct` is not collected, the `clean` rule refuses every formset. */
  lemma CleanRefusesEveryFormset(forms: seq<CandidateForm>)
    ensures !HasCorrectAnswer(forms)
  {
  }

  /** An extra form the user left blank; Django skips it. */
  predicate UnchangedExtra(f: CandidateForm)
  {
    f.instance.None? && f.fullName == "" && !f.delete
  }

  /** A form that will be saved: neither deleted nor a blank extra. */
  predicate Kept(f: CandidateForm)
  {
    !f.delete && !UnchangedExtra(f)
  }

  function DeletedCount(forms: seq<CandidateForm>): nat
  {
    if |forms| == 0 then 0 else (if forms[0].delete then 1 else 0) + DeletedCount(forms[1..])
  }

  function UnchangedExtraCount(forms: seq<CandidateForm>): nat
  {
    if |forms| == 0 then 0 else (if UnchangedExtra(forms[0]) then 1 else 0) + UnchangedExtraCount(forms[1..])
  }

  function KeptCount(forms: seq<CandidateForm>): nat
  {
    if |forms| == 0 then 0 else (if Kept(forms[0]) then 1 else 0) + KeptCount(forms[1..])
  }

  /** Each form is deleted, a blank extra, or kept, and exactly one of them. */
  lemma {:induction false} FormCountsAddUp(forms: seq<CandidateForm>)
    ensures KeptCount(forms) + DeletedCount(forms) + UnchangedExtraCount(forms) == |forms|
  {
    if |forms| > 0 {
      FormCountsAddUp(forms[1..]);
    }
  }

  /** The full names the kept forms carry. */
  function KeptNames(forms: seq<CandidateForm>): set<string>
  {
    if |forms| == 0 then {} else (if Kept(forms[0]) then {forms[0].fullName} else {}) + KeptNames(forms[1..])
  }

  /**
   * Form `i` of the formset validates. The first `min_num` forms may not be
   * left blank. The hidden primary-key field accepts any existing candidate,
   * since its choices are all candidates; one of another position passes here
   * and is skipped when the formset is saved.
   */
  predicate CandidateFormValid(db: Db, position: Id, f: CandidateForm, i: nat)
  {
    if UnchangedExtra(f) && i >= MinCandidates then true
    else
      && TextFieldValid(f.fullName)
      && (f.instance.Some? ==> f.instance.value in db.candidates)
  }

  /**
   * `formset.is_valid()` without the `clean` hook: every form not marked for
   * deletion validates, at most `max_num` forms are not deleted, and at least
   * `min_num` are neither deleted nor blank.
   */
  predicate CandidateFormsetValid(db: Db, position: Id, forms: seq<CandidateForm>)
  {
    && (forall i :: 0 <= i < |forms| && !forms[i].delete ==> CandidateFormValid(db, position, forms[i], i))
    && |forms| - DeletedCount(forms) <= MaxCandidates
    && |forms| - DeletedCount(forms) - UnchangedExtraCount(forms) >= MinCandidates
  }

  /** A valid candidate formset saves between 2 and 10 candidates. */
  lemma ValidFormsetKeepsTwoToTen(db: Db, position: Id, forms: seq<CandidateForm>)
    requires CandidateFormsetValid(db, position, forms)
    ensures MinCandidates <= KeptCount(forms) <= MaxCandidates
  {
    FormCountsAddUp(forms);
  }

  /** `formset.is_valid()` as written, with the `clean` hook. */
  predicate CandidateFormsetValidAsWritten(db: Db, position: Id, forms: seq<CandidateForm>)
  {
    CandidateFormsetValid(db, position, forms) && HasCorrectAnswer(forms)
  }

  // ------------------------------------------------------- StudentSignUpForm

  /** Some account already has this username. */
  predicate UsernameTaken(db: Db, username: string)
  {
    exists u :: u in db.users && db.users[u].username == username
  }

  /**
   * `StudentSignUpForm` validates and `save` runs as one atomic step: a user
   * flagged as a student, exactly one `Student` for it, and the chosen faculties,
   * of which at least one is required. Returns the new user's id.
   */
  function SignUpStudent(db: Db, username: string, faculties: set<Id>): (r: Result<(Db, Id)>)
    requires WellFormed(db)
    ensures r.Ok? <==>
      0 < |username| <= MaxUsernameLength && !UsernameTaken(db, username)
      && faculties != {} && faculties <= db.faculties.Keys
    ensures r.Err? ==> r.error == Invalid
    ensures r.Ok? ==> var (db', u) := r.value;
      && u !in db.users && u !in db.students
      && db'.users == db.users[u := User(username, true, false)]
      && db'.students == db.students[u := Student(faculties)]
      && db' == db.(users := db'.users, students := db'.students, nextId := db'.nextId)
  {
    if !(0 < |username| <= MaxUsernameLength) || UsernameTaken(db, username) then Err(Invalid)
    else if faculties == {} || !(faculties <= db.faculties.Keys) then Err(Invalid)
    else
      var u := db.nextId;
      Ok((db.(users := db.users[u := User(username, true, false)],
              students := db.students[u := Student(faculties)],
              nextId := u + 1), u))
  }

  /** Signing up keeps the database well formed. */
  lemma SignUpKeepsWellFormed(db: Db, username: string, faculties: set<Id>)
    requires WellFormed(db)
    ensures SignUpStudent(db, username, faculties).Ok? ==> WellFormed(SignUpStudent(db, username, faculties).value.0)
  {
  }
}

=== FILE: models.dfy ===
/**
 * The tables of the `institution` application as immutable values, with the
 * remaining-positions query of a student and the cascading deletes the foreign
 * keys declare.
 *
 * Every table is a map from primary key to row. Foreign keys are plain ids;
 * `WellFormed` states the referential integrity the database enforces, and that
 * every key is below `nextId`, the counter from which new rows take their key.
 */
module Models {
  import opened Ordering

  type Id = nat

  /** An account; the two flags say which role it holds. */
  datatype User = User(username: string, isStudent: bool, isEcOfficer: bool)

  /** Reference data: a faculty and the colour of its badge. */
  datatype Faculty = Faculty(name: string, color: string)

  /** An election, created by one EC officer (`owner`) for one faculty. */
  datatype Election = Election(owner: Id, name: string, faculty: Id)

  /** A contest inside one election. */
  datatype Position = Position(election: Id, text: string)

  /** A candidate standing for one position (the photo is not modelled). */
  datatype Candidate = Candidate(position: Id, fullName: string)

  /** A student profile, keyed by its user's id, with the faculties it belongs to. */
  datatype Student = Student(faculties: set<Id>)

  /** A completion record: `student` has voted in every position of `election`. */
  datatype VotedElection = VotedElection(student: Id, election: Id, date: nat)

  /** A ballot: `student` chose `candidate` for the candidate's position. */
  datatype StudentVote = StudentVote(student: Id, candidate: Id)

  datatype Db = Db(
    users: map<Id, User>,
    faculties: map<Id, Faculty>,
    elections: map<Id, Election>,
    positions: map<Id, Position>,
    candidates: map<Id, Candidate>,
    students: map<Id, Student>,
    votedElections: map<Id, VotedElection>,
    votes: map<Id, StudentVote>,
    nextId: Id)

  /** Every primary key in use is below the key counter. */
  ghost predicate KeysBelow(db: Db)
  {
    && (forall k :: k in db.users ==> k < db.nextId)
    && (forall k :: k in db.faculties ==> k < db.nextId)
    && (forall k :: k in db.elections ==> k < db.nextId)
    && (forall k :: k in db.positions ==> k < db.nextId)
    && (forall k :: k in db.candidates ==> k < db.nextId)
    && (forall k :: k in db.students ==> k < db.nextId)
    && (forall k :: k in db.votedElections ==> k < db.nextId)
    && (forall k :: k in db.votes ==> k < db.nextId)
  }

  /** Every foreign key of the election side refers to an existing row. */
  ghost predicate ElectionSideLinked(db: Db)
  {
    && (forall e :: e in db.elections ==> db.elections[e].owner in db.users && db.elections[e].faculty in db.faculties)
    && (forall p :: p in db.positions ==> db.positions[p].election in db.elections)
    && (forall c :: c in db.candidates ==> db.candidates[c].position in db.positions)
  }

  /** Every foreign key of the student side refers to an existing row. */
  ghost predicate StudentSideLinked(db: Db)
  {
    && (forall s :: s in db.students ==> s in db.users && db.students[s].faculties <= db.faculties.Keys)
    && (forall r :: r in db.votedElections ==>
          db.votedElections[r].student in db.students && db.votedElections[r].election in db.elections)
    && (forall v :: v in db.votes ==> db.votes[v].student in db.students && db.votes[v].candidate in db.candidates)
  }

  /** The state the database guarantees between requests. */
  ghost predicate WellFormed(db: Db)
  {
    KeysBelow(db) && ElectionSideLinked(db) && StudentSideLinked(db)
  }

  /** The positions of election `e` (`election.positions`). */
  function PositionsOf(db: Db, e: Id): set<Id>
  {
    set p | p in db.positions && db.positions[p].election == e
  }

  /** The completion records of election `e` (`election.voted_elections`). */
  function CompletionsOf(db: Db, e: Id): set<Id>
  {
    set r | r in db.votedElections && db.votedElections[r].election == e
  }

  /** The elections student `s` has completed (`student.elections`, through `VotedElection`). */
  function CompletedElections(db: Db, s: Id): (r: set<Id>)
    ensures forall e :: e in r <==>
      exists k :: k in db.votedElections && db.votedElections[k] == VotedElection(s, e, db.votedElections[k].date)
  {
    set k | k in db.votedElections && db.votedElections[k].student == s :: db.votedElections[k].election
  }

  /** Ballot `v` is a ballot of student `s` for position `p`. */
  predicate IsBallotFor(db: Db, v: Id, s: Id, p: Id)
  {
    && v in db.votes
    && db.votes[v].student == s
    && db.votes[v].candidate in db.candidates
    && db.candidates[db.votes[v].candidate].position == p
  }

  /** Student `s` has cast a ballot for position `p`. */
  ghost predicate HasBallot(db: Db, s: Id, p: Id)
  {
    exists v :: IsBallotFor(db, v, s, p)
  }

  /**
   * The positions of election `e` that student `s` has cast a ballot for: the
   * subquery of `get_unvoted_positions`, joining ballot, candidate and position.
   */
  function VotedPositions(db: Db, s: Id, e: Id): set<Id>
  {
    set v | v in db.votes && db.votes[v].student == s && db.votes[v].candidate in db.candidates
              && db.candidates[db.votes[v].candidate].position in db.positions
              && db.positions[db.candidates[db.votes[v].candidate].position].election == e
          :: db.candidates[db.votes[v].candidate].position
  }

  /** The positions of `e` still open to student `s`, as a set. */
  function UnvotedPositionSet(db: Db, s: Id, e: Id): (r: set<Id>)
    ensures r <= PositionsOf(db, e)
  {
    set p | p in db.positions && db.positions[p].election == e && p !in VotedPositions(db, s, e)
  }

  /**
   * A position is open to a student exactly when it belongs to the election and
   * the student holds no ballot for it; ballots of other elections play no part.
   */
  lemma UnvotedMembership(db: Db, s: Id, e: Id)
    ensures forall p :: p in UnvotedPositionSet(db, s, e) <==>
      p in db.positions && db.positions[p].election == e && !HasBallot(db, s, p)
  {
    forall p | p in db.positions && db.positions[p].election == e
      ensures p in VotedPositions(db, s, e) <==> HasBallot(db, s, p)
    {
      if HasBallot(db, s, p) {
        var v :| IsBallotFor(db, v, s, p);
        assert db.candidates[db.votes[v].candidate].position == p;
      }
      if p in VotedPositions(db, s, e) {
        var v :| v in db.votes && db.votes[v].student == s && db.votes[v].candidate in db.candidates
                 && db.candidates[db.votes[v].candidate].position == p;
        assert IsBallotFor(db, v, s, p);
      }
    }
  }

  /** The sort key of a position: its text, then its primary key. */
  function PositionKey(db: Db, p: Id): Key
  {
    Key(if p in db.positions then db.positions[p].text else "", 0, p)
  }

  /**
   * `Student.get_unvoted_positions`: the positions of `e` the student has no
   * ballot for, ordered by text (ties, which the database leaves unordered,
   * by primary key).
   */
  function GetUnvotedPositions(db: Db, s: Id, e: Id): (r: seq<Id>)
    ensures forall p :: p in r <==> p in db.positions && db.positions[p].election == e && !HasBallot(db, s, p)
    ensures |r| == |UnvotedPositionSet(db, s, e)|
    ensures forall i :: 0 <= i < |r| ==> r[i] in db.positions
    ensures forall i, j :: 0 <= i < j < |r| ==>
      r[i] != r[j] && TextLe(db.positions[r[i]].text, db.positions[r[j]].text)
  {
    var key := (p: nat) => PositionKey(db, p);
    UnvotedMembership(db, s, e);
    SortedByText(UnvotedPositionSet(db, s, e), key);
    SortByKey(UnvotedPositionSet(db, s, e), key)
  }

  /** Insert ballot `(s, c)` under a fresh key. */
  function AddBallot(db: Db, s: Id, c: Id): Db
  {
    db.(votes := db.votes[db.nextId := StudentVote(s, c)], nextId := db.nextId + 1)
  }

  /** Insert completion record `(s, e)` dated `date` under a fresh key. */
  function AddCompletion(db: Db, s: Id, e: Id, date: nat): Db
  {
    db.(votedElections := db.votedElections[db.nextId := VotedElection(s, e, date)], nextId := db.nextId + 1)
  }

  /** After a ballot for `c`, the ballots are the old ones plus exactly that one. */
  lemma HasBallotAfterAdd(db: Db, s: Id, c: Id, s': Id, p: Id)
    requires db.nextId !in db.votes
    requires c in db.candidates
    ensures HasBallot(AddBallot(db, s, c), s', p) <==>
      HasBallot(db, s', p) || (s' == s && p == db.candidates[c].position)
  {
    var db' := AddBallot(db, s, c);
    if HasBallot(db', s', p) {
      var v :| IsBallotFor(db', v, s', p);
      if v != db.nextId {
        assert IsBallotFor(db, v, s', p);
      }
    }
    if HasBallot(db, s', p) {
      var v :| IsBallotFor(db, v, s', p);
      assert IsBallotFor(db', v, s', p);
    }
    if s' == s && p == db.candidates[c].position {
      assert IsBallotFor(db', db.nextId, s', p);
    }
  }

  /**
   * A ballot for a candidate of position `p` closes exactly `p` for its voter:
   * the voter's remaining set in `p`'s election loses `p`, and every other
   * remaining set (other elections, other students) is unchanged.
   */
  lemma BallotClosesItsPosition(db: Db, s: Id, c: Id, s': Id, e: Id)
    requires WellFormed(db)
    requires c in db.candidates
    ensures UnvotedPositionSet(AddBallot(db, s, c), s', e) ==
      if s' == s then UnvotedPositionSet(db, s', e) - {db.candidates[c].position}
      else UnvotedPositionSet(db, s', e)
  {
    var db' := AddBallot(db, s, c);
    UnvotedMembership(db, s', e);
    UnvotedMembership(db', s', e);
    forall p
      ensures HasBallot(db', s', p) <==> HasBallot(db, s', p) || (s' == s && p == db.candidates[c].position)
    {
      HasBallotAfterAdd(db, s, c, s', p);
    }
  }

  /** The remaining set of `s'` in `e` once `s` has voted for `c`, as `BallotClosesItsPosition` states it. */
  function OpenAfterBallot(db: Db, s: Id, c: Id, s': Id, e: Id): set<Id>
    requires c in db.candidates
  {
    if s' == s then UnvotedPositionSet(db, s', e) - {db.candidates[c].position}
    else UnvotedPositionSet(db, s', e)
  }

  /** `BallotClosesItsPosition` for every student and every election at once. */
  lemma BallotClosesItsPositionEverywhere(db: Db, s: Id, c: Id)
    requires WellFormed(db)
    requires c in db.candidates
    ensures forall s', e :: UnvotedPositionSet(AddBallot(db, s, c), s', e) == OpenAfterBallot(db, s, c, s', e)
  {
    forall s', e
      ensures UnvotedPositionSet(AddBallot(db, s, c), s', e) == OpenAfterBallot(db, s, c, s', e)
    {
      BallotClosesItsPosition(db, s, c, s', e);
    }
  }

  /** A ballot for a position of another election leaves the remaining set of `e` as it was. */
  lemma OtherElectionBallotIrrelevant(db: Db, s: Id, c: Id, e: Id)
    requires WellFormed(db)
    requires c in db.candidates
    requires db.positions[db.candidates[c].position].election != e
    ensures UnvotedPositionSet(AddBallot(db, s, c), s, e) == UnvotedPositionSet(db, s, e)
  {
    BallotClosesItsPosition(db, s, c, s, e);
  }

  /** Adding ballots never reopens a position: the remaining set only shrinks. */
  lemma UnvotedNeverGrows(db: Db, s: Id, c: Id, s': Id, e: Id)
    requires WellFormed(db)
    requires c in db.candidates
    ensures UnvotedPositionSet(AddBallot(db, s, c), s', e) <= UnvotedPositionSet(db, s', e)
  {
    BallotClosesItsPosition(db, s, c, s', e);
  }

  /** Delete the candidates `cs`; their ballots go with them (`on_delete=CASCADE`). */
  function RemoveCandidates(db: Db, cs: set<Id>): (r: Db)
    ensures r.candidates.Keys == db.candidates.Keys - cs
    ensures forall v :: v in r.votes <==> v in db.votes && db.votes[v].candidate !in cs
    ensures forall c :: c in r.candidates ==> r.candidates[c] == db.candidates[c]
    ensures forall v :: v in r.votes ==> r.votes[v] == db.votes[v]
    ensures r == db.(candidates := r.candidates, votes := r.votes)
  {
    db.(candidates := map c | c in db.candidates && c !in cs :: db.candidates[c],
        votes := map v | v in db.votes && db.votes[v].candidate !in cs :: db.votes[v])
  }

  /** Delete the positions `ps`; their candidates, and so their ballots, go with them. */
  function RemovePositions(db: Db, ps: set<Id>): (r: Db)
    ensures r.positions.Keys == db.positions.Keys - ps
    ensures forall c :: c in r.candidates <==> c in db.candidates && db.candidates[c].position !in ps
    ensures forall v :: v in r.votes <==>
      (v in db.votes && !(db.votes[v].candidate in db.candidates && db.candidates[db.votes[v].candidate].position in ps))
    ensures forall p :: p in r.positions ==> r.positions[p] == db.positions[p]
    ensures forall c :: c in r.candidates ==> r.candidates[c] == db.candidates[c]
    ensures forall v :: v in r.votes ==> r.votes[v] == db.votes[v]
    ensures r == db.(positions := r.positions, candidates := r.candidates, votes := r.votes)
  {
    var cs := set c | c in db.candidates && db.candidates[c].position in ps;
    RemoveCandidates(db, cs).(positions := map p | p in db.positions && p !in ps :: db.positions[p])
  }

  /**
   * Delete election `e`; its positions (with their candidates and ballots) and
   * its completion records go with it.
   */
  function RemoveElection(db: Db, e: Id): (r: Db)
    ensures r.elections.Keys == db.elections.Keys - {e}
    ensures forall p :: p in r.positions <==> p in db.positions && db.positions[p].election != e
    ensures forall k :: k in r.votedElections <==> k in db.votedElections && db.votedElections[k].election != e
    ensures forall c :: c in r.candidates <==> c in db.candidates && db.candidates[c].position !in PositionsOf(db, e)
    ensures forall v :: v in r.votes <==>
      (v in db.votes && !(db.votes[v].candidate in db.candidates && db.candidates[db.votes[v].candidate].position in PositionsOf(db, e)))
    ensures forall c :: c in r.candidates ==> r.candidates[c] == db.candidates[c]
    ensures forall v :: v in r.votes ==> r.votes[v] == db.votes[v]
    ensures forall k :: k in r.elections ==> r.elections[k] == db.elections[k]
    ensures forall p :: p in r.positions ==> r.positions[p] == db.positions[p]
    ensures forall k :: k in r.votedElections ==> r.votedElections[k] == db.votedElections[k]
    ensures r == db.(elections := r.elections, positions := r.positions, candidates := r.candidates,
                     votes := r.votes, votedElections := r.votedElections)
  {
    var db1 := RemovePositions(db, PositionsOf(db, e));
    db1.(elections := map k | k in db.elections && k != e :: db.elections[k],
         votedElections := map k | k in db.votedElections && db.votedElections[k].election != e :: db.votedElections[k])
  }

  /** Which rows survive deleting candidates `cs`, and that nothing is left dangling. */
  lemma RemoveCandidatesCascade(db: Db, cs: set<Id>)
    requires WellFormed(db)
    ensures WellFormed(RemoveCandidates(db, cs))
    ensures forall v :: v in RemoveCandidates(db, cs).votes <==> v in db.votes && db.votes[v].candidate in RemoveCandidates(db, cs).candidates
  {
  }

  /**
   * Deleting positions `ps` leaves a well-formed database in which a candidate
   * survives exactly when its position does, and a ballot exactly when its
   * candidate does.
   */
  lemma RemovePositionsCascade(db: Db, ps: set<Id>)
    requires WellFormed(db)
    ensures WellFormed(RemovePositions(db, ps))
    ensures forall c :: c in RemovePositions(db, ps).candidates <==>
      c in db.candidates && db.candidates[c].position in RemovePositions(db, ps).positions
    ensures forall v :: v in RemovePositions(db, ps).votes <==>
      v in db.votes && db.votes[v].candidate in RemovePositions(db, ps).candidates
  {
  }

  /**
   * Deleting an election leaves a well-formed database in which a position
   * survives exactly when its election does, and a completion record exactly
   * when its election does.
   */
  lemma RemoveElectionCascade(db: Db, e: Id)
    requires WellFormed(db)
    ensures WellFormed(RemoveElection(db, e))
    ensures forall p :: p in RemoveElection(db, e).positions <==>
      p in db.positions && db.positions[p].election in RemoveElection(db, e).elections
    ensures forall r :: r in RemoveElection(db, e).votedElections <==>
      r in db.votedElections && db.votedElections[r].election in RemoveElection(db, e).elections
  {
    RemovePositionsCascade(db, PositionsOf(db, e));
  }

  /**
   * Deleting position `p` closes it for every student (its ballots are gone
   * with it) and leaves every other remaining set as it was.
   */
  lemma RemovePositionUnvoted(db: Db, p: Id, s: Id, e: Id)
    ensures UnvotedPositionSet(RemovePositions(db, {p}), s, e) == UnvotedPositionSet(db, s, e) - {p}
  {
    var db' := RemovePositions(db, {p});
    UnvotedMembership(db, s, e);
    UnvotedMembership(db', s, e);
    forall q | q != p
      ensures HasBallot(db', s, q) <==> HasBallot(db, s, q)
    {
      if HasBallot(db, s, q) {
        var v :| IsBallotFor(db, v, s, q);
        assert IsBallotFor(db', v, s, q);
      }
      if HasBallot(db', s, q) {
        var v :| IsBallotFor(db', v, s, q);
        assert IsBallotFor(db, v, s, q);
      }
    }
  }
}

=== FILE: ordering.dfy ===
/**
 * Sort keys and a sort of a finite set of primary keys.
 *
 * The database orders rows by a text column (`order_by('text')`, `order_by('full_name')`,
 * `order_by('election__name')`) or by a date (`order_by('-date')`). A `Key` holds the
 * text and two integers; every key built by the model ends with the row's primary key,
 * so no two rows share a key and the sorted order is fully determined.
 */
module Ordering {

  /** A sort key: a text compared by character code, then `major`, then `minor`. */
  datatype Key = Key(text: string, major: int, minor: int)

  /** Lexicographic order on strings by character code. */
  predicate TextLe(a: string, b: string)
    decreases |a|
  {
    |a| == 0 || (|b| > 0 && (a[0] < b[0] || (a[0] == b[0] && TextLe(a[1..], b[1..]))))
  }

  /** Lexicographic order on keys. */
  predicate KeyLe(a: Key, b: Key)
  {
    if a.text != b.text then TextLe(a.text, b.text)
    else if a.major != b.major then a.major < b.major
    else a.minor <= b.minor
  }

  lemma {:induction false} TextLeReflexive(a: string)
    ensures TextLe(a, a)
    decreases |a|
  {
    if |a| > 0 {
      TextLeReflexive(a[1..]);
    }
  }

  lemma {:induction false} TextLeAntisymmetric(a: string, b: string)
    requires TextLe(a, b) && TextLe(b, a)
    ensures a == b
    decreases |a|
  {
    if |a| > 0 {
      TextLeAntisymmetric(a[1..], b[1..]);
      assert a == [a[0]] + a[1..];
      assert b == [b[0]] + b[1..];
    }
  }

  lemma {:induction false} TextLeTransitive(a: string, b: string, c: string)
    requires TextLe(a, b) && TextLe(b, c)
    ensures TextLe(a, c)
    decreases |a|
  {
    if |a| > 0 && a[0] == b[0] && b[0] == c[0] {
      TextLeTransitive(a[1..], b[1..], c[1..]);
    }
  }

  lemma {:induction false} TextLeTotal(a: string, b: string)
    ensures TextLe(a, b) || TextLe(b, a)
    decreases |a|
  {
    if |a| > 0 && |b| > 0 && a[0] == b[0] {
      TextLeTotal(a[1..], b[1..]);
    }
  }

  lemma KeyLeReflexive(a: Key)
    ensures KeyLe(a, a)
  {
  }

  lemma KeyLeAntisymmetric(a: Key, b: Key)
    requires KeyLe(a, b) && KeyLe(b, a)
    ensures a == b
  {
    if a.text != b.text {
      TextLeAntisymmetric(a.text, b.text);
    }
  }

  lemma KeyLeTransitive(a: Key, b: Key, c: Key)
    requires KeyLe(a, b) && KeyLe(b, c)
    ensures KeyLe(a, c)
  {
    if a.text != b.text && b.text != c.text {
      TextLeTransitive(a.text, b.text, c.text);
      if a.text == c.text {
        TextLeAntisymmetric(a.text, b.text);
      }
    }
  }

  lemma KeyLeTotal(a: Key, b: Key)
    ensures KeyLe(a, b) || KeyLe(b, a)
  {
    TextLeTotal(a.text, b.text);
  }

  /** On equal texts the key order is the order of the numbers. */
  lemma KeyLeText(a: Key, b: Key)
    requires KeyLe(a, b)
    ensures TextLe(a.text, b.text)
  {
    if a.text == b.text {
      TextLeReflexive(a.text);
    }
  }

  /** No two members of `s` share a key. */
  ghost predicate Injective(s: set<nat>, key: nat -> Key)
  {
    forall a, b :: a in s && b in s && key(a) == key(b) ==> a == b
  }

  /** `m` is the member of `s` with the least key. */
  predicate IsLeast(s: set<nat>, key: nat -> Key, m: nat)
  {
    m in s && forall q :: q in s ==> KeyLe(key(m), key(q))
  }

  /** Every non-empty finite set has a member with the least key. */
  lemma {:induction false} LeastExists(s: set<nat>, key: nat -> Key)
    requires s != {}
    ensures exists m :: IsLeast(s, key, m)
    decreases s
  {
    var x :| x in s;
    if s == {x} {
      KeyLeReflexive(key(x));
      assert IsLeast(s, key, x);
    } else {
      LeastExists(s - {x}, key);
      var m :| IsLeast(s - {x}, key, m);
      KeyLeTotal(key(x), key(m));
      if KeyLe(key(x), key(m)) {
        forall q | q in s
          ensures KeyLe(key(x), key(q))
        {
          if q == x {
            KeyLeReflexive(key(x));
          } else {
            KeyLeTransitive(key(x), key(m), key(q));
          }
        }
        assert IsLeast(s, key, x);
      } else {
        assert IsLeast(s, key, m);
      }
    }
  }

  /** Two least members of a set without shared keys are the same member. */
  lemma LeastUnique(s: set<nat>, key: nat -> Key)
    requires Injective(s, key)
    ensures forall a, b :: IsLeast(s, key, a) && IsLeast(s, key, b) ==> a == b
  {
    forall a, b | IsLeast(s, key, a) && IsLeast(s, key, b)
      ensures a == b
    {
      KeyLeAntisymmetric(key(a), key(b));
    }
  }

  /**
   * The members of `s` in ascending key order: every member exactly once, and
   * every member before every member with a greater key.
   */
  function SortByKey(s: set<nat>, key: nat -> Key): (r: seq<nat>)
    requires Injective(s, key)
    ensures |r| == |s|
    ensures forall i :: 0 <= i < |r| ==> r[i] in s
    ensures forall x :: x in s ==> x in r
    ensures forall i, j :: 0 <= i < j < |r| ==> KeyLe(key(r[i]), key(r[j])) && r[i] != r[j]
    decreases s
  {
    if s == {} then []
    else
      LeastExists(s, key);
      LeastUnique(s, key);
      var m :| IsLeast(s, key, m);
      [m] + SortByKey(s - {m}, key)
  }

  /** A sort by key is in particular a sort by the keys' texts. */
  lemma SortedByText(s: set<nat>, key: nat -> Key)
    requires Injective(s, key)
    ensures forall i, j :: 0 <= i < j < |SortByKey(s, key)| ==>
      TextLe(key(SortByKey(s, key)[i]).text, key(SortByKey(s, key)[j]).text)
  {
    var r := SortByKey(s, key);
    forall i, j | 0 <= i < j < |r|
      ensures TextLe(key(r[i]).text, key(r[j]).text)
    {
      KeyLeText(key(r[i]), key(r[j]));
    }
  }

  /** The head of a sorted set is its least member. */
  lemma SortedHeadIsLeast(s: set<nat>, key: nat -> Key)
    requires Injective(s, key)
    requires s != {}
    ensures IsLeast(s, key, SortByKey(s, key)[0])
  {
    var r := SortByKey(s, key);
    forall q | q in s
      ensures KeyLe(key(r[0]), key(q))
    {
      var j :| 0 <= j < |r| && r[j] == q;
      if j == 0 {
        KeyLeReflexive(key(q));
      }
    }
  }
}

=== FILE: outcomes.dfy ===
/** Failure-carrying results shared by every request handler of the model. */
module Outcomes {

  /** An optional value: a row that may be missing, a choice that may be absent. */
  datatype Option<+T> = None | Some(value: T)

  /** How a request can end without writing anything. */
  datatype Error =
    /** `get_object_or_404` found no row (or none inside the caller's scope). */
    | NotFound
    /** A form or formset did not validate; the page is rendered again. */
    | Invalid
    /** An exception escaped the view; an enclosing atomic block is rolled back. */
    | ServerError

  /** The outcome of a request: a value on success, otherwise an error and no write. */
  datatype Result<+T> = Ok(value: T) | Err(error: Error)
}

=== FILE: scenarios.dfy ===
/**
 * Worked scenarios: a two-position election voted through to completion, and
 * the refusals along the way.
 */
module Scenarios {
  import opened Outcomes
  import opened Ordering
  import opened Models
  import opened Forms
  import opened StudentViews
  import opened EcViews

  /**
   * A student who has voted nothing yet in an election with two positions,
   * `p1` before `p2` in text order, and one candidate `c1` of `p1` and `c2` of `p2`.
   */
  ghost predicate TwoOpenPositions(db: Db, s: Id, e: Id, p1: Id, p2: Id, c1: Id, c2: Id)
  {
    && VotingInvariant(db)
    && s in db.students && e in db.elections
    && e !in CompletedElections(db, s)
    && p1 != p2
    && PositionsOf(db, e) == {p1, p2}
    && UnvotedPositionSet(db, s, e) == {p1, p2}
    && KeyLe(PositionKey(db, p1), PositionKey(db, p2))
    && c1 in db.candidates && db.candidates[c1].position == p1
    && c2 in db.candidates && db.candidates[c2].position == p2
  }

  /** The first position by text is offered first. */
  lemma FirstOfferIsFirstByText(db: Db, s: Id, e: Id, p1: Id, p2: Id, c1: Id, c2: Id)
    requires TwoOpenPositions(db, s, e, p1, p2, c1, c2)
    ensures NextOpenPosition(db, s, e) == Some(p1)
  {
    var m := NextOpenPosition(db, s, e).value;
    if m == p2 {
      KeyLeAntisymmetric(PositionKey(db, p1), PositionKey(db, p2));
    }
  }

  /**
   * Submitting the second position's candidate while the first is offered is
   * refused with the page shown again, and nothing is written.
   */
  lemma OutOfTurnBallotRefused(db: Db, s: Id, e: Id, p1: Id, p2: Id, c1: Id, c2: Id, now: nat)
    requires TwoOpenPositions(db, s, e, p1, p2, c1, c2)
    ensures Vote(db, s, e, Submit(Some(c2)), now).db == db
    ensures Vote(db, s, e, Submit(Some(c2)), now).outcome.Form?
    ensures Vote(db, s, e, Submit(Some(c2)), now).outcome.page.position == p1
    ensures Vote(db, s, e, Submit(Some(c2)), now).outcome.page.rejected
  {
    FirstOfferIsFirstByText(db, s, e, p1, p2, c1, c2);
  }

  /** The ballot for the first position is recorded and leaves the second one open and offered. */
  lemma FirstBallotLeavesSecond(db: Db, s: Id, e: Id, p1: Id, p2: Id, c1: Id, c2: Id, now: nat)
    requires TwoOpenPositions(db, s, e, p1, p2, c1, c2)
    ensures Vote(db, s, e, Submit(Some(c1)), now) == VoteResult(AddBallot(db, s, c1), NextPosition)
    ensures UnvotedPositionSet(AddBallot(db, s, c1), s, e) == {p2}
    ensures NextOpenPosition(AddBallot(db, s, c1), s, e) == Some(p2)
  {
    FirstOfferIsFirstByText(db, s, e, p1, p2, c1, c2);
    OfferedChoiceIsCast(db, s, e, p1, c1, now);
    BallotClosesItsPosition(db, s, c1, s, e);
    var r := CastBallot(db, s, e, c1, now);
    assert r.outcome == NextPosition;
    assert r.db == AddBallot(db, s, c1);
  }

  /** With one position left open, the ballot for it finishes the election. */
  lemma LastOpenBallotFinishes(db: Db, s: Id, e: Id, p: Id, c: Id, now: nat)
    requires WellFormed(db)
    requires s in db.students && e in db.elections
    requires e !in CompletedElections(db, s)
    requires UnvotedPositionSet(db, s, e) == {p}
    requires c in db.candidates && db.candidates[c].position == p
    ensures Vote(db, s, e, Submit(Some(c)), now).outcome == Finished
  {
    assert NextOpenPosition(db, s, e) == Some(p);
    OfferedChoiceIsCast(db, s, e, p, c, now);
  }

  /**
   * Walking the election through: the ballot for the first position leaves
   * the second open, the ballot for the second finishes the election, and the
   * election is refused as completed from then on.
   */
  lemma TwoPositionWalkthrough(db: Db, s: Id, e: Id, p1: Id, p2: Id, c1: Id, c2: Id, now: nat, later: nat, last: nat)
    requires TwoOpenPositions(db, s, e, p1, p2, c1, c2)
    ensures var r1 := Vote(db, s, e, Submit(Some(c1)), now);
      && r1.outcome == NextPosition
      && VotingInvariant(r1.db) && s in r1.db.students
      && Vote(r1.db, s, e, Submit(Some(c2)), later).outcome == Finished
      && VotingInvariant(Vote(r1.db, s, e, Submit(Some(c2)), later).db)
      && s in Vote(r1.db, s, e, Submit(Some(c2)), later).db.students
      && Vote(Vote(r1.db, s, e, Submit(Some(c2)), later).db, s, e, Show, last).outcome == AlreadyCompleted
  {
    FirstBallotLeavesSecond(db, s, e, p1, p2, c1, c2, now);
    var db1 := AddBallot(db, s, c1);
    FirstBallotKeepsInvariant(db, s, e, p1, p2, c1, c2, now);
    LastOpenBallotFinishes(db1, s, e, p2, c2, later);
    CompletionIsFinal(db1, s, e, Submit(Some(c2)), later, Show, last);
  }

  /** After the first ballot the invariant holds and the election is still open to the student. */
  lemma FirstBallotKeepsInvariant(db: Db, s: Id, e: Id, p1: Id, p2: Id, c1: Id, c2: Id, now: nat)
    requires TwoOpenPositions(db, s, e, p1, p2, c1, c2)
    ensures VotingInvariant(AddBallot(db, s, c1))
    ensures s in AddBallot(db, s, c1).students && e in AddBallot(db, s, c1).elections
    ensures e !in CompletedElections(AddBallot(db, s, c1), s)
    ensures c2 in AddBallot(db, s, c1).candidates && AddBallot(db, s, c1).candidates[c2].position == p2
  {
    UnvotedMembership(db, s, e);
    CastBallotKeepsInvariant(db, s, e, c1, now);
    BallotClosesItsPosition(db, s, c1, s, e);
    var r := CastBallot(db, s, e, c1, now);
    assert r.outcome == NextPosition;
    assert r.db == AddBallot(db, s, c1);
    assert CompletedElections(AddBallot(db, s, c1), s) == CompletedElections(db, s);
  }

  /**
   * A tampered candidate formset whose one initial form names a candidate of
   * another position, followed by a new candidate "A": the formset validates,
   * the foreign form is skipped, and only "A" is added.
   */
  lemma ForeignCandidateFormSkipped(db: Db, p: Id, c: Id, name: string)
    requires c in db.candidates && db.candidates[c].position != p
    requires TextFieldValid(name)
    ensures var forms := [CandidateForm(Some(c), name, false, false), CandidateForm(None, "A", false, false)];
      && CandidateFormsetValid(db, p, forms)
      && SaveCandidateForms(db, p, forms).candidates == db.candidates[db.nextId := Candidate(p, "A")]
  {
    var forms := [CandidateForm(Some(c), name, false, false), CandidateForm(None, "A", false, false)];
    assert forms[1..][1..] == [];
    assert DeletedCount(forms[1..][1..]) == 0 && UnchangedExtraCount(forms[1..][1..]) == 0;
    assert !forms[1].delete && !UnchangedExtra(forms[1]);
    assert DeletedCount(forms[1..]) == 0 && UnchangedExtraCount(forms[1..]) == 0;
    assert !forms[0].delete && !UnchangedExtra(forms[0]);
    assert DeletedCount(forms) == 0 && UnchangedExtraCount(forms) == 0;
    assert c !in CandidatesOf(db, p);
    assert SaveCandidateForm(db, p, forms[0]) == db;
    assert SaveCandidateForms(db, p, forms) == SaveCandidateForms(db, p, forms[1..]);
    assert SaveCandidateForms(db, p, forms[1..]) == SaveCandidateForm(db, p, forms[1]);
  }
}

=== FILE: student_views.dfy ===
/**
 * The student side of the application: the list of elections a student may
 * vote in, the list of completed elections, the faculty form, and the `vote`
 * view, which walks a student through an election one position at a time.
 */
module StudentViews {
  import opened Outcomes
  import opened Ordering
  import opened Models
  import opened Forms

  // ----------------------------------------------------------- election lists

  /**
   * `ElectionListView.get_queryset`: the elections of the student's faculties
   * that the student has not completed and that have at least one position.
   * (The view's `ordering` is not applied, because `get_queryset` is overridden.)
   */
  function ElectionList(db: Db, s: Id): (r: set<Id>)
    requires s in db.students
    ensures forall e :: e in r <==>
      && e in db.elections
      && db.elections[e].faculty in db.students[s].faculties
      && !(exists k :: k in db.votedElections && db.votedElections[k].student == s && db.votedElections[k].election == e)
      && PositionsOf(db, e) != {}
  {
    var completed := CompletedElections(db, s);
    set e | e in db.elections && db.elections[e].faculty in db.students[s].faculties
            && e !in completed && |PositionsOf(db, e)| > 0
  }

  /** The sort key of a completion record: its election's name, then its own key. */
  function CompletionByNameKey(db: Db, k: Id): Key
  {
    var name :=
      if k in db.votedElections && db.votedElections[k].election in db.elections
      then db.elections[db.votedElections[k].election].name else "";
    Key(name, 0, k)
  }

  /**
   * `VotedElectionListView.get_queryset`: the student's own completion records,
   * each once, ordered by election name.
   */
  function VotedElectionList(db: Db, s: Id): (r: seq<Id>)
    ensures forall k :: k in r <==> k in db.votedElections && db.votedElections[k].student == s
    ensures forall i, j :: 0 <= i < j < |r| ==>
      r[i] != r[j] && TextLe(CompletionByNameKey(db, r[i]).text, CompletionByNameKey(db, r[j]).text)
  {
    var key := (k: nat) => CompletionByNameKey(db, k);
    var mine := set k | k in db.votedElections && db.votedElections[k].student == s;
    SortedByText(mine, key);
    SortByKey(mine, key)
  }

  /**
   * `StudentFacultyView` with `StudentFacultyForm`: replaces the student's
   * faculties; the many-to-many field is required and accepts existing
   * faculties only.
   */
  function UpdateFaculties(db: Db, s: Id, faculties: set<Id>): (r: Result<Db>)
    requires s in db.students
    ensures r.Ok? <==> faculties != {} && faculties <= db.faculties.Keys
    ensures r.Err? ==> r.error == Invalid
    ensures r.Ok? ==> r.value == db.(students := db.students[s := Student(faculties)])
    ensures r.Ok? && WellFormed(db) ==> WellFormed(r.value)
    ensures r.Ok? ==> forall e :: e in ElectionList(r.value, s) <==>
      && e in db.elections
      && db.elections[e].faculty in faculties
      && e !in CompletedElections(db, s)
      && PositionsOf(db, e) != {}
    ensures r.Ok? ==> forall s' :: s' in db.students && s' != s ==> ElectionList(r.value, s') == ElectionList(db, s')
  {
    if faculties == {} || !(faculties <= db.faculties.Keys) then Err(Invalid)
    else Ok(db.(students := db.students[s := Student(faculties)]))
  }

  // ---------------------------------------------------------------- progress

  function Abs(x: int): nat
  {
    if x < 0 then -x else x
  }

  /**
   * Python's `round` of the exact quotient `n / d`: the nearest integer, ties
   * to the even one.
   */
  function RoundHalfEven(n: int, d: int): (r: int)
    requires d > 0
    ensures 2 * Abs(n - r * d) <= d
    ensures 2 * Abs(n - r * d) == d ==> r % 2 == 0
  {
    var q := n / d;
    var m := n % d;
    assert n == q * d + m;
    if 2 * m < d || (2 * m == d && q % 2 == 0) then q
    else
      assert n - (q + 1) * d == m - d;
      q + 1
  }

  /** Rounding a quotient that lies in `lo..hi` gives a value in `lo..hi`. */
  lemma RoundWithin(n: int, d: int, lo: int, hi: int)
    requires d > 0
    requires lo * d <= n <= hi * d
    ensures lo <= RoundHalfEven(n, d) <= hi
  {
    var k := RoundHalfEven(n, d);
    if k < lo {
      assert (lo - 1) * d == lo * d - d;
      MulMonotone(k, lo - 1, d);
    } else if k > hi {
      assert (hi + 1) * d == hi * d + d;
      MulMonotone(hi + 1, k, d);
    }
  }

  lemma MulMonotone(a: int, b: int, d: int)
    requires d > 0 && a <= b
    ensures a * d <= b * d
  {
    assert b * d - a * d == (b - a) * d;
  }

  /**
   * The progress bar of the vote page, `100 - round((u - 1) / t * 100)`, for `u`
   * open positions out of `t`. It is 100 on the last position and stays within
   * 0..100 while a position is open.
   */
  function Progress(u: int, t: int): (r: int)
    requires t > 0
    ensures 2 * Abs((100 - r) * t - 100 * (u - 1)) <= t
    ensures u == 1 ==> r == 100
    ensures 1 <= u <= t ==> 0 <= r <= 100
  {
    var k := RoundHalfEven(100 * (u - 1), t);
    if 1 <= u <= t then
      RoundWithin(100 * (u - 1), t, 0, 100);
      100 - k
    else
    100 - k
  }

  // -------------------------------------------------------------- vote view

  /** The first position the student still has to vote in (`unvoted_positions.first()`). */
  function NextOpenPosition(db: Db, s: Id, e: Id): (r: Option<Id>)
    ensures r.Some? <==> UnvotedPositionSet(db, s, e) != {}
    ensures r.Some? ==> IsLeast(UnvotedPositionSet(db, s, e), (p: nat) => PositionKey(db, p), r.value)
  {
    var open := GetUnvotedPositions(db, s, e);
    UnvotedMembership(db, s, e);
    if |open| == 0 then None
    else
      SortedHeadIsLeast(UnvotedPositionSet(db, s, e), (p: nat) => PositionKey(db, p));
      Some(open[0])
  }

  /** A GET of the vote page, or a POST with the selected candidate, if any. */
  datatype VoteRequest = Show | Submit(choice: Option<Id>)

  /**
   * The rendered vote page: the position, the open and total position counts
   * the progress bar is drawn from, the choices, and whether a POST was refused.
   */
  datatype VotePage = VotePage(position: Id, unvoted: nat, total: nat, choices: seq<Id>, rejected: bool)
  {
    /** The progress bar shown on the page. */
    function ProgressBar(): int
      requires total > 0
    {
      Progress(unvoted, total)
    }
  }

  datatype VoteOutcome =
    /** The election does not exist, or an exception escaped the view. */
    | Failed(error: Error)
    /**
     * The student already has a completion record for the election. The view
     * renders `students/voted_elections_list.html`, without the `institution/`
     * prefix its other templates use; whether a template exists at that path
     * is outside this model. If none does, this answer is a server error
     * instead, with the same (empty) effect on the database.
     */
    | AlreadyCompleted
    /** The vote page is rendered. */
    | Form(page: VotePage)
    /** The ballot was recorded and positions remain: redirect to the vote page. */
    | NextPosition
    /** The ballot was recorded and closed the election: the completion record was written. */
    | Finished

  datatype VoteResult = VoteResult(db: Db, outcome: VoteOutcome)

  /**
   * The atomic block of the vote view: record the ballot; if no position of the
   * election is left open, record the completion in the same step. Only the
   * ballot and completion tables change.
   */
  function CastBallot(db: Db, s: Id, e: Id, c: Id, now: nat): (r: VoteResult)
    requires WellFormed(db)
    requires c in db.candidates
    ensures r.outcome == NextPosition || r.outcome == Finished
    ensures r.db.votes == db.votes[db.nextId := StudentVote(s, c)]
    ensures r.db.(votes := db.votes, votedElections := db.votedElections, nextId := db.nextId) == db
    ensures r.outcome == Finished <==> UnvotedPositionSet(db, s, e) <= {db.candidates[c].position}
    ensures r.outcome == Finished ==>
      && r.db.votedElections == db.votedElections[db.nextId + 1 := VotedElection(s, e, now)]
      && UnvotedPositionSet(r.db, s, e) == {}
    ensures r.outcome == NextPosition ==>
      && r.db.votedElections == db.votedElections
      && UnvotedPositionSet(r.db, s, e) != {}
  {
    var db1 := SaveVoteForm(db, s, c).value;
    assert db1 == AddBallot(db, s, c);
    CompletionKeepsUnvoted(db1, s, e, now, s, e);
    if UnvotedPositionSet(db1, s, e) != {} then VoteResult(db1, NextPosition)
    else VoteResult(AddCompletion(db1, s, e, now), Finished)
  }

  /**
   * The vote page for the open `position`, or, for a POST, the form's verdict:
   * a refused choice renders the page again, an accepted one is cast.
   */
  function Answer(db: Db, s: Id, e: Id, position: Id, unvoted: nat, total: nat, req: VoteRequest, now: nat): (r: VoteResult)
    requires WellFormed(db)
  {
    var page := VotePage(position, unvoted, total, VoteChoices(db, position), false);
    match req
    case Show => VoteResult(db, Form(page))
    case Submit(choice) =>
      if !VoteFormValid(db, position, choice) then VoteResult(db, Form(page.(rejected := true)))
      else CastBallot(db, s, e, choice.value, now)
  }

  /**
   * The `vote` view for student `s` and election `e` at time `now`, with the
   * intended ballot write. The view does not check the student's faculty.
   */
  function Vote(db: Db, s: Id, e: Id, req: VoteRequest, now: nat): (r: VoteResult)
    requires WellFormed(db)
    requires s in db.students
    ensures r.outcome == AlreadyCompleted <==> e in db.elections && e in CompletedElections(db, s)
    ensures r.outcome == Failed(NotFound) <==> e !in db.elections
    ensures r.db != db ==> r.outcome == NextPosition || r.outcome == Finished
  {
    if e !in db.elections then VoteResult(db, Failed(NotFound))
    else if e in CompletedElections(db, s) then VoteResult(db, AlreadyCompleted)
    else
      var total := |PositionsOf(db, e)|;
      // ZeroDivisionError in the progress formula.
      if total == 0 then VoteResult(db, Failed(ServerError))
      else
        match NextOpenPosition(db, s, e)
        // `VoteForm(position=None)` fails on `None.candidates`.
        case None => VoteResult(db, Failed(ServerError))
        case Some(position) =>
          Answer(db, s, e, position, |UnvotedPositionSet(db, s, e)|, total, req, now)
  }

  // ------------------------------------------------- vote-view invariants

  /** At most one ballot per student and position. */
  ghost predicate OneBallotPerPosition(db: Db)
  {
    forall v, w, s, p :: IsBallotFor(db, v, s, p) && IsBallotFor(db, w, s, p) ==> v == w
  }

  /** At most one completion record per student and election. */
  ghost predicate OneCompletionPerElection(db: Db)
  {
    forall k, l ::
      (&& k in db.votedElections && l in db.votedElections
       && db.votedElections[k].student == db.votedElections[l].student
       && db.votedElections[k].election == db.votedElections[l].election)
      ==> k == l
  }

  /** The state the voting workflow keeps between requests. */
  ghost predicate VotingInvariant(db: Db)
  {
    WellFormed(db) && OneBallotPerPosition(db) && OneCompletionPerElection(db)
  }

  /**
   * A write that keeps the database well formed, adds or changes no ballot and
   * no completion record, and moves no surviving candidate to another position
   * keeps the voting invariant.
   */
  lemma VotingInvariantFrame(db: Db, db': Db)
    requires VotingInvariant(db) && WellFormed(db')
    requires forall v :: v in db'.votes ==> v in db.votes && db'.votes[v] == db.votes[v]
    requires forall c :: c in db'.candidates && c in db.candidates ==> db'.candidates[c].position == db.candidates[c].position
    requires forall k :: k in db'.votedElections ==> k in db.votedElections && db'.votedElections[k] == db.votedElections[k]
    ensures VotingInvariant(db')
  {
    forall v, s, p | IsBallotFor(db', v, s, p)
      ensures IsBallotFor(db, v, s, p)
    {
    }
  }

  /** Signing up a student keeps the voting invariant. */
  lemma SignUpKeepsVotingInvariant(db: Db, username: string, faculties: set<Id>)
    requires VotingInvariant(db)
    ensures SignUpStudent(db, username, faculties).Ok? ==> VotingInvariant(SignUpStudent(db, username, faculties).value.0)
  {
    var r := SignUpStudent(db, username, faculties);
    if r.Ok? {
      SignUpKeepsWellFormed(db, username, faculties);
      VotingInvariantFrame(db, r.value.0);
    }
  }

  /** Changing a student's faculties keeps the voting invariant. */
  lemma UpdateFacultiesKeepsVotingInvariant(db: Db, s: Id, faculties: set<Id>)
    requires VotingInvariant(db)
    requires s in db.students
    ensures UpdateFaculties(db, s, faculties).Ok? ==> VotingInvariant(UpdateFaculties(db, s, faculties).value)
  {
    var r := UpdateFaculties(db, s, faculties);
    if r.Ok? {
      VotingInvariantFrame(db, r.value);
    }
  }

  /** The vote view accepted a ballot. */
  predicate BallotAccepted(r: VoteResult)
  {
    r.outcome == NextPosition || r.outcome == Finished
  }

  /** A completion record changes no remaining set. */
  lemma CompletionKeepsUnvoted(db: Db, s: Id, e: Id, date: nat, s': Id, e': Id)
    ensures UnvotedPositionSet(AddCompletion(db, s, e, date), s', e') == UnvotedPositionSet(db, s', e')
  {
    UnvotedMembership(db, s', e');
    UnvotedMembership(AddCompletion(db, s, e, date), s', e');
  }

  /**
   * An accepted ballot is the submitted candidate, which stands for the first
   * open position; it is written under a fresh key and nothing else changes in
   * the ballot table.
   */
  lemma VoteRecordsOfferedChoice(db: Db, s: Id, e: Id, req: VoteRequest, now: nat)
    requires WellFormed(db)
    requires s in db.students
    ensures var r := Vote(db, s, e, req, now);
      BallotAccepted(r) ==>
        && req.Submit? && req.choice.Some?
        && NextOpenPosition(db, s, e).Some?
        && req.choice.value in db.candidates
        && db.candidates[req.choice.value].position == NextOpenPosition(db, s, e).value
        && r.db.votes == db.votes[db.nextId := StudentVote(s, req.choice.value)]
  {
    AcceptedVoteIsCast(db, s, e, req, now);
  }

  /**
   * The completion record is written in the same step as the ballot that
   * closes the last open position, and only then; it is the only completion
   * record written, and afterwards nothing is left open.
   */
  lemma VoteCompletesOnLastPosition(db: Db, s: Id, e: Id, req: VoteRequest, now: nat)
    requires WellFormed(db)
    requires s in db.students
    ensures var r := Vote(db, s, e, req, now);
      BallotAccepted(r) ==>
        (r.outcome == Finished <==> UnvotedPositionSet(db, s, e) == {NextOpenPosition(db, s, e).value})
    ensures var r := Vote(db, s, e, req, now);
      r.outcome == Finished ==>
        && r.db.votedElections == db.votedElections[db.nextId + 1 := VotedElection(s, e, now)]
        && UnvotedPositionSet(r.db, s, e) == {}
    ensures var r := Vote(db, s, e, req, now);
      r.outcome == NextPosition ==>
        && r.db.votedElections == db.votedElections
        && UnvotedPositionSet(r.db, s, e) != {}
  {
    FinishedIffLastOpen(db, s, e, req, now);
    AcceptedVoteEffects(db, s, e, req, now);
  }

  lemma FinishedIffLastOpen(db: Db, s: Id, e: Id, req: VoteRequest, now: nat)
    requires WellFormed(db)
    requires s in db.students
    ensures var r := Vote(db, s, e, req, now);
      BallotAccepted(r) ==>
        (r.outcome == Finished <==> UnvotedPositionSet(db, s, e) == {NextOpenPosition(db, s, e).value})
  {
    AcceptedVoteIsCast(db, s, e, req, now);
  }

  lemma AcceptedVoteEffects(db: Db, s: Id, e: Id, req: VoteRequest, now: nat)
    requires WellFormed(db)
    requires s in db.students
    ensures var r := Vote(db, s, e, req, now);
      r.outcome == Finished ==>
        && r.db.votedElections == db.votedElections[db.nextId + 1 := VotedElection(s, e, now)]
        && UnvotedPositionSet(r.db, s, e) == {}
    ensures var r := Vote(db, s, e, req, now);
      r.outcome == NextPosition ==>
        && r.db.votedElections == db.votedElections
        && UnvotedPositionSet(r.db, s, e) != {}
  {
    AcceptedVoteIsCast(db, s, e, req, now);
    var r := Vote(db, s, e, req, now);
    if BallotAccepted(r) {
      CastBallotEffects(db, s, e, req.choice.value, now, r);
    }
  }

  /** The effects of the atomic block, read off any result equal to it. */
  lemma CastBallotEffects(db: Db, s: Id, e: Id, c: Id, now: nat, r: VoteResult)
    requires WellFormed(db)
    requires c in db.candidates
    requires r == CastBallot(db, s, e, c, now)
    ensures r.outcome == Finished ==>
      && r.db.votedElections == db.votedElections[db.nextId + 1 := VotedElection(s, e, now)]
      && UnvotedPositionSet(r.db, s, e) == {}
    ensures r.outcome == NextPosition ==>
      && r.db.votedElections == db.votedElections
      && UnvotedPositionSet(r.db, s, e) != {}
  {
  }

  /**
   * Conversely, a candidate of the offered position, submitted for an election
   * the student has not completed, is accepted and cast.
   */
  lemma OfferedChoiceIsCast(db: Db, s: Id, e: Id, p: Id, c: Id, now: nat)
    requires WellFormed(db)
    requires s in db.students && e in db.elections
    requires e !in CompletedElections(db, s)
    requires NextOpenPosition(db, s, e) == Some(p)
    requires c in db.candidates && db.candidates[c].position == p
    ensures Vote(db, s, e, Submit(Some(c)), now) == CastBallot(db, s, e, c, now)
  {
    var u := UnvotedPositionSet(db, s, e);
    assert p in u;
    assert |PositionsOf(db, e)| > 0;
    assert Vote(db, s, e, Submit(Some(c)), now) == Answer(db, s, e, p, |u|, |PositionsOf(db, e)|, Submit(Some(c)), now);
    assert VoteFormValid(db, p, Some(c));
  }

  /** An accepted ballot is the atomic block run for the offered position's candidate. */
  lemma AcceptedVoteIsCast(db: Db, s: Id, e: Id, req: VoteRequest, now: nat)
    requires WellFormed(db)
    requires s in db.students
    ensures var r := Vote(db, s, e, req, now);
      BallotAccepted(r) ==>
        && req.Submit? && req.choice.Some? && req.choice.value in db.candidates
        && NextOpenPosition(db, s, e) == Some(db.candidates[req.choice.value].position)
        && db.candidates[req.choice.value].position in UnvotedPositionSet(db, s, e)
        && r == CastBallot(db, s, e, req.choice.value, now)
  {
    var r := Vote(db, s, e, req, now);
    if BallotAccepted(r) {
      assert e in db.elections && e !in CompletedElections(db, s) && |PositionsOf(db, e)| > 0;
      var p := NextOpenPosition(db, s, e).value;
      var u := UnvotedPositionSet(db, s, e);
      assert r == Answer(db, s, e, p, |u|, |PositionsOf(db, e)|, req, now);
      assert p in u;
    }
  }

  /**
   * The vote page offers the first open position in text order, with that
   * position's candidates; its progress bar lies in 0..100 and shows 100 on
   * the last open position. Rendering the page writes nothing.
   */
  lemma VotePageOffersFirstOpenPosition(db: Db, s: Id, e: Id, req: VoteRequest, now: nat)
    requires WellFormed(db)
    requires s in db.students
    ensures var r := Vote(db, s, e, req, now);
      r.outcome.Form? ==>
        && r.db == db
        && NextOpenPosition(db, s, e) == Some(r.outcome.page.position)
        && r.outcome.page.choices == VoteChoices(db, r.outcome.page.position)
        && (r.outcome.page.rejected <==> req.Submit?)
        && r.outcome.page.unvoted == |UnvotedPositionSet(db, s, e)|
        && r.outcome.page.total == |PositionsOf(db, e)| > 0
        && 0 <= r.outcome.page.ProgressBar() <= 100
        && (UnvotedPositionSet(db, s, e) == {r.outcome.page.position} ==> r.outcome.page.ProgressBar() == 100)
  {
    var r := Vote(db, s, e, req, now);
    if r.outcome.Form? {
      var u := UnvotedPositionSet(db, s, e);
      var position := NextOpenPosition(db, s, e).value;
      assert r == Answer(db, s, e, position, |u|, |PositionsOf(db, e)|, req, now);
      AnswerPage(db, s, e, position, |u|, |PositionsOf(db, e)|, req, now, r);
      SubsetCardinality(u, PositionsOf(db, e));
      if u == {position} {
        assert |u| == 1;
      }
    }
  }

  /** What the vote page rendered by `Answer` shows. */
  lemma AnswerPage(db: Db, s: Id, e: Id, position: Id, unvoted: nat, total: nat, req: VoteRequest, now: nat, r: VoteResult)
    requires WellFormed(db)
    requires r == Answer(db, s, e, position, unvoted, total, req, now)
    ensures r.db != db ==> req.Submit? && VoteFormValid(db, position, req.choice)
    ensures r.outcome.Form? ==>
      && r.db == db
      && r.outcome.page == VotePage(position, unvoted, total, VoteChoices(db, position), req.Submit?)
  {
  }

  lemma {:induction false} SubsetCardinality(a: set<Id>, b: set<Id>)
    requires a <= b
    ensures |a| <= |b|
    decreases b
  {
    if a != {} {
      var x :| x in a;
      SubsetCardinality(a - {x}, b - {x});
    }
  }

  /** A ballot for a position the student has not voted in keeps one ballot per position. */
  lemma FreshBallotKeepsOneBallot(db: Db, s: Id, c: Id)
    requires WellFormed(db) && OneBallotPerPosition(db)
    requires c in db.candidates
    requires !HasBallot(db, s, db.candidates[c].position)
    ensures OneBallotPerPosition(AddBallot(db, s, c))
  {
    var db1 := AddBallot(db, s, c);
    var p := db.candidates[c].position;
    forall v, w, s', p' | IsBallotFor(db1, v, s', p') && IsBallotFor(db1, w, s', p')
      ensures v == w
    {
      if v != db.nextId && w != db.nextId {
        assert IsBallotFor(db, v, s', p') && IsBallotFor(db, w, s', p');
      } else if v != db.nextId {
        assert IsBallotFor(db, v, s, p);
      } else if w != db.nextId {
        assert IsBallotFor(db, w, s, p);
      }
    }
  }

  /** A completion record for an election the student has not completed keeps one record per pair. */
  lemma FreshCompletionKeepsOneCompletion(db: Db, s: Id, e: Id, now: nat)
    requires WellFormed(db) && OneCompletionPerElection(db)
    requires e !in CompletedElections(db, s)
    ensures OneCompletionPerElection(AddCompletion(db, s, e, now))
  {
  }

  lemma AddBallotKeepsWellFormed(db: Db, s: Id, c: Id)
    requires WellFormed(db)
    requires s in db.students && c in db.candidates
    ensures WellFormed(AddBallot(db, s, c))
  {
  }

  lemma AddCompletionKeepsWellFormed(db: Db, s: Id, e: Id, date: nat)
    requires WellFormed(db)
    requires s in db.students && e in db.elections
    ensures WellFormed(AddCompletion(db, s, e, date))
  {
  }

  /** The atomic step keeps the invariant when it closes an open position of an uncompleted election. */
  lemma CastBallotKeepsInvariant(db: Db, s: Id, e: Id, c: Id, now: nat)
    requires VotingInvariant(db)
    requires s in db.students && e in db.elections && c in db.candidates
    requires e !in CompletedElections(db, s)
    requires !HasBallot(db, s, db.candidates[c].position)
    ensures VotingInvariant(CastBallot(db, s, e, c, now).db)
  {
    var db1 := AddBallot(db, s, c);
    FreshBallotKeepsOneBallot(db, s, c);
    AddBallotKeepsWellFormed(db, s, c);
    assert OneCompletionPerElection(db1) by {
      assert db1.votedElections == db.votedElections;
    }
    if UnvotedPositionSet(db1, s, e) != {} {
      assert CastBallot(db, s, e, c, now).db == db1;
    } else {
      assert CastBallot(db, s, e, c, now).db == AddCompletion(db1, s, e, now);
      assert CompletedElections(db1, s) == CompletedElections(db, s);
      FreshCompletionKeepsInvariant(db1, s, e, now);
    }
  }

  /** A completion record for an election the student has not completed keeps the invariant. */
  lemma FreshCompletionKeepsInvariant(db: Db, s: Id, e: Id, now: nat)
    requires VotingInvariant(db)
    requires s in db.students && e in db.elections
    requires e !in CompletedElections(db, s)
    ensures VotingInvariant(AddCompletion(db, s, e, now))
  {
    FreshCompletionKeepsOneCompletion(db, s, e, now);
    AddCompletionKeepsWellFormed(db, s, e, now);
    CompletionKeepsOneBallot(db, s, e, now);
  }

  /** A completion record adds no ballot. */
  lemma CompletionKeepsOneBallot(db: Db, s: Id, e: Id, now: nat)
    requires OneBallotPerPosition(db)
    ensures OneBallotPerPosition(AddCompletion(db, s, e, now))
  {
    var db2 := AddCompletion(db, s, e, now);
    forall v, w, s', p' | IsBallotFor(db2, v, s', p') && IsBallotFor(db2, w, s', p')
      ensures v == w
    {
      assert IsBallotFor(db, v, s', p') && IsBallotFor(db, w, s', p');
    }
  }

  /** The vote view keeps the voting invariant. */
  lemma VoteKeepsInvariant(db: Db, s: Id, e: Id, req: VoteRequest, now: nat)
    requires VotingInvariant(db)
    requires s in db.students
    ensures VotingInvariant(Vote(db, s, e, req, now).db)
  {
    var r := Vote(db, s, e, req, now);
    AcceptedVoteIsCast(db, s, e, req, now);
    if BallotAccepted(r) {
      var c := req.choice.value;
      UnvotedMembership(db, s, e);
      CastBallotKeepsInvariant(db, s, e, c, now);
    }
  }

  /**
   * A completed election stays completed: once the completion record is
   * written, every later request for the election is refused and writes nothing.
   */
  lemma CompletionIsFinal(db: Db, s: Id, e: Id, req: VoteRequest, now: nat, req': VoteRequest, later: nat)
    requires VotingInvariant(db)
    requires s in db.students
    requires Vote(db, s, e, req, now).outcome == Finished
    ensures VotingInvariant(Vote(db, s, e, req, now).db)
    ensures Vote(db, s, e, req, now).db.students == db.students
    ensures var db' := Vote(db, s, e, req, now).db;
      Vote(db', s, e, req', later) == VoteResult(db', AlreadyCompleted)
  {
    VoteKeepsInvariant(db, s, e, req, now);
    AcceptedVoteIsCast(db, s, e, req, now);
    var r := Vote(db, s, e, req, now);
    CastBallotEffects(db, s, e, req.choice.value, now, r);
    var db' := r.db;
    assert db'.votedElections[db.nextId + 1] == VotedElection(s, e, now);
    CompletedElectionRefused(db', s, e, req', later);
  }

  /** A request for an election the student has completed is refused and writes nothing. */
  lemma CompletedElectionRefused(db: Db, s: Id, e: Id, req: VoteRequest, now: nat)
    requires WellFormed(db)
    requires s in db.students && e in db.elections
    requires e in CompletedElections(db, s)
    ensures Vote(db, s, e, req, now) == VoteResult(db, AlreadyCompleted)
  {
  }

  /**
   * An election on the student's list is never refused as completed or missing,
   * it has a position, so the progress formula never divides by zero; and while
   * a position is open the vote page is shown.
   */
  lemma ListedElectionsCanBeVoted(db: Db, s: Id, e: Id, now: nat)
    requires WellFormed(db)
    requires s in db.students
    requires e in ElectionList(db, s)
    ensures |PositionsOf(db, e)| > 0
    ensures Vote(db, s, e, Show, now).outcome != AlreadyCompleted
    ensures Vote(db, s, e, Show, now).outcome != Failed(NotFound)
    ensures NextOpenPosition(db, s, e).Some? ==> Vote(db, s, e, Show, now).outcome.Form?
  {
  }

  /**
   * Deleting the one position a student has left open, in an election that
   * keeps other positions, strands the student: the election stays on their
   * list, yet it has no open position, so every request to the vote view fails
   * on `None.candidates` and the election can never be completed.
   */
  lemma DeletedOpenPositionStrandsStudent(db: Db, s: Id, e: Id, p: Id, q: Id, req: VoteRequest, now: nat)
    requires WellFormed(db)
    requires s in db.students
    requires e in ElectionList(db, s)
    requires UnvotedPositionSet(db, s, e) == {p}
    requires q in PositionsOf(db, e) && q != p
    ensures WellFormed(RemovePositions(db, {p}))
    ensures s in RemovePositions(db, {p}).students
    ensures e in ElectionList(RemovePositions(db, {p}), s)
    ensures Vote(RemovePositions(db, {p}), s, e, req, now) == VoteResult(RemovePositions(db, {p}), Failed(ServerError))
  {
    RemovePositionsCascade(db, {p});
    DeletedOpenPositionStaysListed(db, s, e, p, q);
    NoOpenPositionFails(RemovePositions(db, {p}), s, e, req, now);
  }

  /** After the deletion the election is still listed and has no open position. */
  lemma DeletedOpenPositionStaysListed(db: Db, s: Id, e: Id, p: Id, q: Id)
    requires s in db.students
    requires e in ElectionList(db, s)
    requires UnvotedPositionSet(db, s, e) == {p}
    requires q in PositionsOf(db, e) && q != p
    ensures s in RemovePositions(db, {p}).students
    ensures e in ElectionList(RemovePositions(db, {p}), s)
    ensures UnvotedPositionSet(RemovePositions(db, {p}), s, e) == {}
  {
    var db' := RemovePositions(db, {p});
    RemovePositionUnvoted(db, p, s, e);
    assert q in PositionsOf(db', e);
    assert CompletedElections(db', s) == CompletedElections(db, s);
  }

  /**
   * A listed election in which the student has no open position fails on every
   * request, without writing anything.
   */
  lemma NoOpenPositionFails(db: Db, s: Id, e: Id, req: VoteRequest, now: nat)
    requires WellFormed(db)
    requires s in db.students
    requires e in ElectionList(db, s)
    requires UnvotedPositionSet(db, s, e) == {}
    ensures Vote(db, s, e, req, now) == VoteResult(db, Failed(ServerError))
  {
  }

  // ------------------------------------------------------ as-written vote

  /**
   * The atomic block of the vote view as written (with the ballot write as
   * intended). When the ballot closes the last position, the view first counts
   * the student's completion records filtered by `candidate`, a field they do
   * not have, so Django raises a FieldError while building that query. The
   * completion record is never created. The message after it, which formats
   * the undefined `quiz.name`, would raise a NameError even with that count
   * repaired, and the redirect after that names `students:elections_list`, a
   * URL that does not exist. Any of these exceptions rolls back the ballot.
   */
  function CastBallotAsWritten(db: Db, s: Id, e: Id, c: Id, now: nat): (r: Result<Db>)
    requires c in db.candidates
    ensures r.Ok? ==> r.value == AddBallot(db, s, c)
  {
    var db1 := AddBallot(db, s, c);
    if UnvotedPositionSet(db1, s, e) != {} then Ok(db1)
    else Err(ServerError)
  }

  /**
   * As written, the ballot for the last open position is always lost: the
   * request fails, nothing is written, and the position is still open, so the
   * student can never complete the election. The intended `CastBallot`
   * records both.
   */
  lemma LastBallotLostAsWritten(db: Db, s: Id, e: Id, c: Id, now: nat)
    requires WellFormed(db)
    requires c in db.candidates
    requires UnvotedPositionSet(db, s, e) == {db.candidates[c].position}
    ensures CastBallotAsWritten(db, s, e, c, now) == Err(ServerError)
    ensures CastBallot(db, s, e, c, now).outcome == Finished
  {
    BallotClosesItsPosition(db, s, c, s, e);
  }
}
